=== FILE: README.md ===
# Interstate75 message scrollers, modelled in Dafny

Two MicroPython scripts drive an Interstate75 LED-matrix panel and show text
messages received over MQTT as scrolling banners:

- `updatedscroller.py` runs its display loop on a second core.
  - The network side writes the latest text and colour into a one-slot status cell.
  - The display loop takes each new message from the cell.
  - It word-wraps the text, scrolls it in from the bottom and holds it in the centre for five seconds.
  - It then scrolls it out at the top.
  - The garbage collector is switched off while the text moves, and a `finally` block switches it back on.
- `MQTTScrollerInterstate75w128_128vr.py` handles each message inside the MQTT callback.
  - It pads the message with spaces and wraps it.
  - It picks a background colour from keywords.
  - It runs a four-state machine: hold, scroll with a one-shot pause half-way, hold, blank.

This project models the pure logic of both scripts.

Modules:

- `PyText` models the Python string operations the scripts use on MicroPython's ASCII whitespace: `split()`, `strip()`, `join`, `split('\n')` and `in`.
- `PyInt` models `int(a / d)`, which truncates toward zero, and `max`.
- `Palette` models the pens and brightness scaling.
- `Keywords` models the ordered first-match keyword rules.
- `StatusCell` models the shared status dictionary, `update_status` and `sub_cb` of the dual-core script.
- `Wrapping` holds what the two greedy word-wrap loops share.
- `ScrollerWrap` models `wrap_text`; `InterstateWrap` models the inline wrap of the 128x128 script.
- `DisplayCycle` models the dual-core display loop.
  - It holds the layout arithmetic, the drift-compensated delay and the visible-line filter of `draw_frame`.
  - It also holds one pass of the loop as a trace of effects: collector calls, draws, sleeps and the final black screen.
  - An exception at any point is a cut of that trace, followed by the `finally` block.
- `InterstateScroll` models the scrolling state machine of the 128x128 script, with clock readings as inputs.

`measure_text` is an arbitrary function `string -> int` passed as a parameter; nothing assumes it is monotone.

## Model

| member | source | states |
|---|---|---|
| StatusCell.UpdateStatus | updatedscroller.py:69-76 | An unchanged text leaves the cell exactly as it was. A changed text stores the text and colour and raises the new-message flag. The flag afterwards is up iff it was up or the text changed. |
| StatusCell.TakeMessage | updatedscroller.py:134-140 | Nothing is taken while the flag is clear. Otherwise the display gets the cell's text and colour, and the cell keeps both with the flag cleared. |
| StatusCell.UpdateDelivers | updatedscroller.py:72-75 | A changed text, whatever came before, is what the display takes next, with the colour sent with it. |
| StatusCell.TakenOnce | updatedscroller.py:138 | Once a message is taken, the cell offers nothing more until a new text arrives. |
| StatusCell.RepeatIgnored | updatedscroller.py:72 | Re-sending the text just taken, in any colour, does not make the display show it again. |
| StatusCell.UpdatesKeepLastText | updatedscroller.py:69-76 | After any run of updates with no display in between, the cell holds the last text sent. There is no queue, and earlier texts are lost. |
| StatusCell.UpdatesRaiseFlag | updatedscroller.py:69-76 | After a run of updates the flag is up iff it was up before or some update differed from the text before it. |
| StatusCell.UpdatesWithoutChange | updatedscroller.py:72 | A run of updates none of which changes the text leaves the cell untouched. |
| StatusCell.UpdatesKeepLastColor | updatedscroller.py:72-74 | After a run of updates the cell holds the colour of the last update that changed the text. Later repeats with other colours do not recolour it. |
| StatusCell.KeywordColor | updatedscroller.py:224-228 | Yellow iff the text contains "Time". Red iff it contains "News" but not "Time". Green iff it contains "Air" but neither of those. Blue iff none of the three. |
| StatusCell.Receive | updatedscroller.py:219-230 | A received text goes into the cell with its keyword colour, under the update rule. |
| Keywords.FirstHit | updatedscroller.py:225-228 | The rule chosen is the first whose keyword occurs, and no earlier keyword occurs. No rule is chosen iff no keyword occurs. |
| Palette.ScaleChannel | MQTTScrollerInterstate75w128_128vr.py:33 | Brightness 100 keeps the channel and brightness 0 zeroes it. For a percentage it stays within [0, c]. For non-negative inputs it equals the floor of c*brightness/100. |
| Palette.ScaleColor | MQTTScrollerInterstate75w128_128vr.py:32-33 | Brightness 100 is the identity and 0 gives black. For a percentage every channel lies between 0 and the original channel. |
| Palette.ScaleMonotone | MQTTScrollerInterstate75w128_128vr.py:32-33 | A higher brightness never gives a darker channel. |
| Palette.CreatePen | updatedscroller.py:38-53 | Every pen created at a brightness percentage is a valid RGB colour no brighter than its full-brightness definition. At 100 it is exactly that definition. |
| PyInt.TruncDiv | updatedscroller.py:145 | `int(a / d)` rounds toward zero. For a >= 0 the quotient is the largest q with q*d <= a. For a < 0 it is the smallest q with a <= q*d. |
| PyText.Words | updatedscroller.py:80 | `split()` gives only non-empty runs of non-whitespace. |
| PyText.WordsEmptyIffBlank | updatedscroller.py:80 | `split()` gives no words iff the text is empty or whitespace only. |
| PyText.WordsPadded | MQTTScrollerInterstate75w128_128vr.py:94-97 | Whitespace added at either end of a text does not change its words. |
| PyText.Strip | MQTTScrollerInterstate75w128_128vr.py:104 | `strip()` leaves no whitespace at either end and never lengthens the text. |
| PyText.StripKeepsWords | MQTTScrollerInterstate75w128_128vr.py:104 | `strip()` removes only whitespace, so a line's words stay the same. |
| PyText.WordsOfJoin | updatedscroller.py:84 | Words joined with single spaces split back into exactly those words. |
| PyText.SplitOnJoin | MQTTScrollerInterstate75w128_128vr.py:77 | Lines free of line breaks, joined with line breaks and split on them again, are given back unchanged. |
| PyText.Contains | updatedscroller.py:226 | `k in s` is true iff `k` occurs in `s` at some index. |
| PyText.ContainsPadded | MQTTScrollerInterstate75w128_128vr.py:154 | A word without whitespace occurs in a whitespace-padded text iff it occurs in the text. |
| ScrollerWrap.WrapText | updatedscroller.py:78-91 | The lines hold exactly the words of the text, in order, each line made of words joined by single spaces. There are no lines iff the text is blank. A line containing a space measures within `width - 4`; only an empty line or a single word may be wider. An empty line can only be first, and it is first iff the first word alone is too wide. Every word of a line from the second on passed the test when it was added: each prefix of two or more of its words, joined with spaces, measures within `width - 4`. A non-empty first line's first word passed it alone. A line ends only when the first word of the next line, added to it after a space, measures more than `width - 4`. |
| ScrollerWrap.ScanInv | updatedscroller.py:83-89 | The loop invariant holds after any number of words. The committed lines and the current line hold the words so far. Each committed line is spaced and fits. Only the first can be empty. |
| ScrollerWrap.StepInv | updatedscroller.py:84-89 | One loop step, accepting or rejecting the word, keeps the invariant. |
| ScrollerWrap.FlushWords | updatedscroller.py:90 | Committing the non-empty current line at the end makes the lines hold all the words. The result is empty iff there were no words. |
| ScrollerWrap.ScanGreedy | updatedscroller.py:83-89 | After any number of words, every committed line ended because the next word did not fit on it, and so did the last one with respect to the line being filled. |
| ScrollerWrap.WrapGreedy | updatedscroller.py:83-90 | The final lines keep the greedy rule: each but the last ended because the next line's first word did not fit on it. |
| ScrollerWrap.ScanGrown | updatedscroller.py:83-89 | After any number of words, every line, the one being filled included, grew only by words that passed the test: from its first word on the first line, from its second on a later one. |
| ScrollerWrap.WrapRejoins | updatedscroller.py:80-91 | Joining the non-empty wrapped lines with single spaces gives the text's words joined with single spaces. No word is lost, split or repeated. |
| Wrapping.GrownExtend | updatedscroller.py:85-86 | A word that passes the test on a line whose words all passed it keeps every prefix of the extended line within the limit. |
| Wrapping.RejoinLines | updatedscroller.py:88-90 | For any spaced lines, joining the non-empty ones with spaces equals joining all their words with spaces. |
| InterstateWrap.WrapMessage | MQTTScrollerInterstate75w128_128vr.py:97-107 | The lines hold exactly the words of the text, in order. Each line is stripped, joined from words with single spaces and free of line breaks. There are no lines iff the text is blank. A later line containing a space measures within `width - 2*(BUFFER_PIXELS+1)`. A non-empty first line measured within it with a space in front. The first line is empty iff the first word with its leading space is too wide. A line ends only when the first word of the next line, added to it after a space, measures more than the limit; for the first line the test includes the leading space that `strip()` later removed. Every word of a later line from the second on passed the test when it was added: each prefix of two or more of its words, joined with spaces, measures within the limit. On the first line every prefix of one or more words, after a leading space, does. |
| InterstateWrap.ScanInv | MQTTScrollerInterstate75w128_128vr.py:100-105 | The loop invariant holds after any number of words. Until the first commit, the current line is a space followed by the words so far. |
| InterstateWrap.StepInv | MQTTScrollerInterstate75w128_128vr.py:101-105 | One loop step, accepting or committing the stripped line, keeps the invariant. |
| InterstateWrap.FlushWrapped | MQTTScrollerInterstate75w128_128vr.py:106-107 | Committing the stripped current line at the end gives lines with all the wrap properties. |
| InterstateWrap.TriedStrip | MQTTScrollerInterstate75w128_128vr.py:99-104 | Putting back the leading space on the first line undoes the `strip()` of a committed line: it gives the line exactly as the loop held it. |
| InterstateWrap.ScanGreedy | MQTTScrollerInterstate75w128_128vr.py:100-105 | After any number of words, every committed line ended because the next word, tried on the line as the loop held it, measured more than the limit. |
| InterstateWrap.ScanGrown | MQTTScrollerInterstate75w128_128vr.py:100-105 | After any number of words, every line grew only by words that passed the test: the first line from its first word on, tried after the leading space, and a later line from its second word on. |
| InterstateWrap.PaddingIgnored | MQTTScrollerInterstate75w128_128vr.py:94-97 | Wrapping the five-space-padded message gives the same lines as wrapping the payload. |
| InterstateWrap.DrawnLines | MQTTScrollerInterstate75w128_128vr.py:109 | The drawing routine splits the newline-joined lines back into the wrapped lines. When there are no lines, it gets one empty line. |
| DisplayCycle.LoadLayout | updatedscroller.py:141-146 | The block is 8 rows per line, and `final_y` puts its bottom two rows above the panel. `center_y` splits the leftover height evenly when it is even. Otherwise `center_y` is rounded toward zero, above the centre or below it by the sign of the leftover. |
| DisplayCycle.LayoutOrdered | updatedscroller.py:145-146 | On a panel of non-negative height, the exit offset lies strictly above the hold offset, which lies at or above the panel height. |
| DisplayCycle.Countdown | updatedscroller.py:156-160 | A `while y > stop: ...; y -= 1` loop visits start, start-1, … down to stop+1, one offset each, and none when start <= stop. |
| DisplayCycle.CountdownSplit | updatedscroller.py:178-179 | Counting down to the middle and then on from it visits exactly the offsets of one countdown over the whole range. |
| DisplayCycle.StepDelay | updatedscroller.py:163-165 | The compensating delay is never negative and at most `SCROLL_SPEED_MS` for a non-negative draw time. The draw time plus the delay is the larger of the draw time and the period. |
| DisplayCycle.ScrollFrames | updatedscroller.py:157-165 | Each offset gives one draw, tagged with its phase and showing the wrapped lines on the message's pen, and one non-negative sleep, and nothing else. |
| DisplayCycle.Cycle | updatedscroller.py:131-199 | A pass is the prefix of the `try` body up to the effect at which the exception is raised (all effects before it kept), followed by the `finally` block and the black screen. It runs the whole body iff no exception is raised inside it. |
| DisplayCycle.PhaseTimeExact | updatedscroller.py:157-165 | A scroll phase never takes less than one period per frame. It takes exactly that iff no draw took longer than the period. |
| DisplayCycle.PhaseTimeOfFrames | updatedscroller.py:157-165 | The draws and sleeps a scroll phase emits take, added up, exactly the phase's wall time: each frame's draw time plus its compensating sleep. |
| DisplayCycle.CycleOffsets | updatedscroller.py:155-186 | A pass that does not raise draws `height`, `height-1`, …, `center_y+1`, then the hold at `center_y`, then `center_y`, …, `final_y+1`. The two scrolls together are one countdown from `height` to `final_y+1`. |
| DisplayCycle.GcOnAfterCycle | updatedscroller.py:191-194 | After every pass, wherever it raised and whatever the collector state before it, the collector is enabled. |
| DisplayCycle.CycleGuarded | updatedscroller.py:152-175 | In every pass, wherever it raised, each scroll frame is drawn with the collector disabled and the hold frame with it enabled. |
| DisplayCycle.CycleShows | updatedscroller.py:138-186 | Every frame of a pass, wherever it raised, draws the wrapped lines of the text taken, on the colour taken with it. |
| DisplayCycle.PassOffsets | updatedscroller.py:155-199 | A pass that does not raise draws the scroll-in countdown, the hold offset and the scroll-out countdown, and nothing after the `try` body draws. |
| DisplayCycle.CycleCollectsFirst | updatedscroller.py:152-175 | In every pass the collector is switched off only immediately after a collection. |
| DisplayCycle.VisibleRows | updatedscroller.py:99-103 | The lines drawn are exactly those whose row lies between -10 and the panel height, in increasing order. |
| DisplayCycle.HoldShowsAll | updatedscroller.py:99-103 | When the block fits the panel, the hold frame draws every line. |
| DisplayCycle.HoldCutsLongText | updatedscroller.py:99-103 | When the block is more than two lines and a row taller than the panel, the hold frame does not draw the last line. |
| DisplayCycle.DisplayStep | updatedscroller.py:131-199 | A pass does nothing while the flag is clear. Otherwise it clears the flag, leaves text and colour in the cell, ends with the black screen and leaves the collector enabled. Every frame draws the wrapped text on the colour taken with it. Without an exception the frames are drawn at `height` down to `center_y+1`, then `center_y`, then `center_y` down to `final_y+1`. |
| DisplayCycle.FirstPassShowsBoot | updatedscroller.py:59-63 | The cell starts with its flag up, so the first pass shows "Booting...", wrapped, on orange and clears the flag. |
| DisplayCycle.UpdateShown | updatedscroller.py:131-140 | After a changed text arrives, the next pass takes it, clears the flag and draws every frame with that text wrapped, on the colour sent with it. |
| InterstateScroll.TotalScroll | MQTTScrollerInterstate75w128_128vr.py:114 | The scroll distance is always at least the panel height plus 3. |
| InterstateScroll.StartValid | MQTTScrollerInterstate75w128_128vr.py:91-117 | The loop starts in the pre-scroll state with consistent variables: no scroll, pause not done. |
| InterstateScroll.Iterate | MQTTScrollerInterstate75w128_128vr.py:119-171 | The state advances by at most one step, in order, and never goes back. The scroll grows by exactly 1 iff the machine is scrolling and more than 100 ms passed. A pause happens only while scrolling, before the pause was done. A text frame is drawn iff the loop has not exited, at x = BUFFER_PIXELS+1 and y = height - scroll + BUFFER_PIXELS; the iteration that exits paints the panel black instead, and it is the only one that does. An exited loop stays exited. Each phase ends iff its timer exceeds its threshold, measured from the clock after any pause: the first hold after more than 2000 ms, the scroll when more than 100 ms passed and the step reaches `total_scroll`, the second hold after more than 2000 ms, the blank screen after more than 3000 ms. Leaving the first hold or the second hold restarts the timer at that reading, and a scroll step restarts it at the reading plus any pause; an iteration that neither changes the state nor scrolls leaves the timer where it was. |
| InterstateScroll.RunLoop | MQTTScrollerInterstate75w128_128vr.py:119-174 | Over successive clock readings at most one frame is drawn per reading, every text frame at column BUFFER_PIXELS+1 on the message's background. The run paints the panel black iff it exits the loop. The state never goes back, and a loop that has exited does nothing more. |
| InterstateScroll.WaitKeepsMachine | MQTTScrollerInterstate75w128_128vr.py:119-148 | Readings that all come within the current phase's wait (2000, 100, 2000 or 3000 ms) of the last recorded time leave the machine exactly as it was, with no pause and no black screen; until the loop has exited each draws the same frame. |
| InterstateScroll.HoldEndsOnTime | MQTTScrollerInterstate75w128_128vr.py:122-148 | A hold phase (first hold, second hold, blank screen) ends at the first reading more than its wait after the last recorded time, and not before: over such readings the state advances exactly one step. |
| InterstateScroll.IterateKeepsValid | MQTTScrollerInterstate75w128_128vr.py:119-148 | The scroll stays between 0 and `total_scroll`. The pause flag is set iff the scroll reached half the distance. The machine is past the scroll state iff the scroll reached `total_scroll`. |
| InterstateScroll.PauseAtHalfway | MQTTScrollerInterstate75w128_128vr.py:126-133 | An iteration pauses iff its step brings the scroll from below `total_scroll // 2` to at least it. The scroll is then exactly `total_scroll // 2`. |
| InterstateScroll.PauseAtMostOnce | MQTTScrollerInterstate75w128_128vr.py:115-133 | Over any run of iterations the loop pauses once if the run crosses the halfway point, and never otherwise. |
| InterstateScroll.MidPauseStays | MQTTScrollerInterstate75w128_128vr.py:130-133 | Once the pause is done it stays done for the rest of the message. |
| InterstateScroll.FramesMoveUp | MQTTScrollerInterstate75w128_128vr.py:166-171 | Over any run, no frame is drawn lower than an earlier one, and none below the row the run started at. |
| InterstateScroll.TextOffPanel | MQTTScrollerInterstate75w128_128vr.py:166-171 | During the first hold the text, outline included, is below the panel. After the full scroll its lowest outline row is the row just above the panel. |
| InterstateScroll.Progress | MQTTScrollerInterstate75w128_128vr.py:119-148 | No iteration adds remaining work. One whose clock reading is late enough for every timing condition does one unit of it, so a message leaves the loop after `total_scroll + 3` such iterations. |
| InterstateScroll.BackgroundPen | MQTTScrollerInterstate75w128_128vr.py:153-163 | Yellow iff "Time" occurs. Red iff "News" but not "Time". Green iff "Air" but none of "Time", "News", "Weather". Blue otherwise. |
| InterstateScroll.BackgroundIgnoresPadding | MQTTScrollerInterstate75w128_128vr.py:154-163 | Looking for the keywords in the padded message picks the same background as looking for them in the payload. |
| InterstateScroll.Prepare | MQTTScrollerInterstate75w128_128vr.py:91-117 | The lines prepared hold exactly the payload's words. The background is the payload's keyword colour. The machine starts consistent, in the pre-scroll state at the given clock reading, with distance 8 rows per line plus height plus BUFFER_PIXELS+1. |

Notes on the code's behaviour:

- The dual-core script keeps one status cell. A newer text overwrites it and an equal text leaves it alone, so texts sent while a message is showing are lost except the last (`StatusCell.UpdatesKeepLastText`, `StatusCell.UpdatesWithoutChange`).
- Every message is scrolled in, held and scrolled out, whatever its height. `draw_frame` picks the lines to draw by the row of their top edge, from -10 to the panel height, so a line wholly above or below the panel can still be drawn (`DisplayCycle.VisibleRows`). At the hold a block more than 17 rows taller than the panel loses its last line (`DisplayCycle.HoldCutsLongText`).
- In the 128x128 script the blank-screen phase keeps the keyword background until the loop exits. Black is painted only by the iteration that exits (`InterstateScroll.Iterate`).
- The "Weather" rule of the 128x128 script picks the default blue, but because it is tested before "Air" it keeps a message that mentions "Weather" blue even when the message also mentions "Air" (`InterstateScroll.BackgroundPen`).

## Left out

- MQTT client, subscriptions, wifi and connection callbacks, heartbeat, LEDs and `machine.reset`: network and board I/O through libraries that are not part of this model.
- The two-core split and the unsynchronised shared dictionary: the cell is modelled as sequential updates and takes.
- Clock reads and sleeps: times are integer millisecond inputs.
  - Tick wrap-around of `ticks_ms`/`ticks_diff` is not modelled.
  - The 1 ms sleep per iteration and the 0.1 s idle poll are not modelled.
  - The code between clock reads takes no time, except the five-second mid-scroll pause.
- Float constants: `HOLD_TIME * 1000`, `SCROLL_SPEED * 1000` and `BLANK_SCREEN_TIME * 1000` become the integers 2000, 100 and 3000. The float threshold `1/10 * 1000` is taken as exactly 100.
- Brightness scaling uses exact rational division. Float rounding of `c * brightness / 100` does not change the result for integer channels and percentages.
- Pixel drawing (`set_pen`, `clear`, `text`, the outline offsets, `i75.update`) is reduced to what each frame shows: in the dual-core script its offset, phase, wrapped lines and pen; in the 128x128 script its position and background, plus the black screen painted on exit. `measure_text` is an arbitrary function.
- UTF-8 decoding of the payload: the text is a string from the start.
- `set_brightness` and the per-iteration re-creation of pens: brightness is a fixed input, and pens are named colours with their RGB values.
- DisplayCycle.ScrollFrames: the draw time is a function of the offset, not of the frame. The timed scroll-frame offsets never repeat within a pass (the hold frame is not timed), so this loses nothing.
- DisplayCycle.Cycle: an exception is a cut of the `try` body at any effect; an exception inside the `finally` block is not modelled.
- The idle wait of the display loop is reduced to "no pass while the flag is clear" (`StatusCell.TakeMessage`).

=== FILE: display_cycle.dfy ===
/** The display loop of updatedscroller.py (`run_display_core_1` with
    `draw_frame`): where the text block sits in each frame, the order of the
    three animation phases, the garbage-collector bracket around them and the
    drift-compensated frame delay.  A pass of the loop is written as the trace
    of the effects it has, so that an exception raised part-way is a cut in
    that trace followed by the `finally` block. */
module DisplayCycle {
  import opened PyInt
  import opened Optional
  import opened Palette
  import opened StatusCell
  import opened ScrollerWrap

  /** Pixel rows per text line of the "bitmap8" font. */
  const LineHeight := 8
  /** `SCROLL_SPEED_MS`: the intended period of one scroll frame. */
  const ScrollSpeedMs := 60
  /** `MIN_DISPLAY_SEC`, in milliseconds: the hold in the centre. */
  const MinDisplayMs := 5000

  /** Vertical placement of a wrapped message of `count` lines. */
  datatype Layout = Layout(count: nat, totalHeight: int, centerY: int, finalY: int)

  /** The load step: block height, the centred offset (Python `int()` of a
      true division, so truncated toward zero) and the offset at which the
      scroll-out stops. */
  function LoadLayout(count: nat, height: int): (l: Layout)
    ensures l.count == count && l.totalHeight == LineHeight * count
    ensures l.finalY + l.totalHeight == -2
    ensures (height - l.totalHeight) % 2 == 0 ==> 2 * l.centerY + l.totalHeight == height
    ensures height >= l.totalHeight ==> 0 <= height - l.totalHeight - 2 * l.centerY <= 1
    ensures height < l.totalHeight ==> -1 <= height - l.totalHeight - 2 * l.centerY <= 0
  {
    var total := LineHeight * count;
    Layout(count, total, TruncDiv(height - total, 2), -(total + 2))
  }

  /** On a panel of non-negative height the three offsets are ordered: the
      scroll-in starts at or below the centre and the scroll-out ends above it. */
  lemma LayoutOrdered(count: nat, height: int)
    requires height >= 0
    ensures var l := LoadLayout(count, height);
      l.finalY < l.centerY <= height
  {
  }

  /** The offsets visited by `while y_pos > stop: …; y_pos -= 1` from `start`. */
  function Countdown(start: int, stop: int): (ys: seq<int>)
    ensures |ys| == if start > stop then start - stop else 0
    ensures forall i :: 0 <= i < |ys| ==> ys[i] == start - i
    decreases start - stop
  {
    if start <= stop then [] else [start] + Countdown(start - 1, stop)
  }

  /** Two consecutive countdowns are one countdown: the scroll-out resumes
      exactly where the scroll-in stopped. */
  lemma CountdownSplit(start: int, mid: int, stop: int)
    requires stop <= mid <= start
    ensures Countdown(start, mid) + Countdown(mid, stop) == Countdown(start, stop)
  {
  }

  /** `max(0, SCROLL_SPEED_MS - diff)`, with `diff` the milliseconds the draw took. */
  function StepDelay(diff: int): (d: int)
    ensures d >= 0
    ensures diff >= 0 ==> d <= ScrollSpeedMs
    ensures diff + d == Max(diff, ScrollSpeedMs)
  {
    Max(0, ScrollSpeedMs - diff)
  }

  datatype Phase = ScrollIn | Hold | ScrollOut

  /** What `draw_frame` is given besides the offset: the wrapped lines and the
      background pen `bg_pen`. */
  datatype Banner = Banner(lines: seq<string>, pen: Pen)

  /** The effects of the display loop, in the order they happen. */
  datatype Event =
    | Collect             // gc.collect()
    | DisableGc           // gc.disable()
    | EnableGc            // gc.enable()
    | Draw(y: int, phase: Phase, shown: Banner)
    | Sleep(ms: int)
    | Blackout            // the black screen after the message

  /** One scroll phase: each offset is drawn and followed by the compensating
      sleep.  `cost(y)` is the clock difference measured around the draw at
      offset `y`.  The timed offsets of a pass, scroll-in and scroll-out
      together, never repeat (the hold frame is not timed), so this is as
      general as one reading per frame. */
  function ScrollFrames(ys: seq<int>, phase: Phase, b: Banner, cost: int -> int): (fs: seq<Event>)
    ensures |fs| == 2 * |ys|
    ensures forall i :: 0 <= i < |fs| ==> fs[i].Draw? || fs[i].Sleep?
    ensures forall i :: 0 <= i < |fs| && fs[i].Draw? ==> fs[i].phase == phase && fs[i].shown == b
    ensures forall i :: 0 <= i < |fs| && fs[i].Sleep? ==> fs[i].ms >= 0
  {
    if |ys| == 0 then []
    else [Draw(ys[0], phase, b), Sleep(StepDelay(cost(ys[0])))] + ScrollFrames(ys[1..], phase, b, cost)
  }

  /** The start of the `try` body of `run_display_core_1`: collect, then switch
      the collector off. */
  const Open := [Collect, DisableGc]

  /** The hold between the scrolls: collector on, the hold frame, the reading
      pause, and the collector off again for the exit. */
  function Middle(centerY: int, b: Banner): seq<Event> {
    [EnableGc, Draw(centerY, Hold, b), Sleep(MinDisplayMs), Collect, DisableGc]
  }

  /** The `finally` block and the black screen painted after it. */
  const Close := [EnableGc, Collect, Blackout]

  /** The `try` body of one pass when nothing raises. */
  function Body(l: Layout, height: int, b: Banner, cost: int -> int): seq<Event> {
    Open + ScrollFrames(Countdown(height, l.centerY), ScrollIn, b, cost)
      + Middle(l.centerY, b) + ScrollFrames(Countdown(l.centerY, l.finalY), ScrollOut, b, cost)
  }

  /** One pass of the loop.  `fault == Some(k)` means an exception is raised
      after the first `k` effects of the body; the handler only logs it. */
  function Cycle(l: Layout, height: int, b: Banner, cost: int -> int, fault: Option<nat>): (cy: seq<Event>)
    ensures var body, n := Body(l, height, b, cost), |cy| - |Close|;
      0 <= n <= |body| && cy == body[..n] + Close
    ensures var body := Body(l, height, b, cost);
      |cy| - |Close| == |body| <==> fault.None? || fault.value >= |body|
    ensures fault.Some? && fault.value < |Body(l, height, b, cost)| ==> |cy| - |Close| == fault.value
  {
    var body := Body(l, height, b, cost);
    assert body[..|body|] == body;
    (if fault.Some? && fault.value < |body| then body[..fault.value] else body) + Close
  }

  function Toggle(on: bool, e: Event): bool {
    match e
    case EnableGc => true
    case DisableGc => false
    case _ => on
  }

  /** Whether the collector is enabled after `es`, starting from `on`. */
  function GcOn(on: bool, es: seq<Event>): bool
    decreases |es|
  {
    if |es| == 0 then on else GcOn(Toggle(on, es[0]), es[1..])
  }

  lemma {:induction false} GcOnAppend(on: bool, a: seq<Event>, c: seq<Event>)
    ensures GcOn(on, a + c) == GcOn(GcOn(on, a), c)
    decreases |a|
  {
    if |a| > 0 {
      assert (a + c)[0] == a[0];
      assert (a + c)[1..] == a[1..] + c;
      GcOnAppend(Toggle(on, a[0]), a[1..], c);
    } else {
      assert a + c == c;
    }
  }

  /** The collector is enabled after every pass, whether or not the pass
      raised and wherever it raised. */
  lemma GcOnAfterCycle(on: bool, l: Layout, height: int, b: Banner, cost: int -> int, fault: Option<nat>)
    ensures GcOn(on, Cycle(l, height, b, cost, fault))
  {
    var body := Body(l, height, b, cost);
    var run := if fault.Some? && fault.value < |body| then body[..fault.value] else body;
    GcOnAppend(on, run, Close);
  }

  /** A draw happens in the right collector state: scroll frames with the
      collector off, the hold frame with it on. */
  predicate DrawOk(on: bool, e: Event) {
    e.Draw? ==> (e.phase == Hold <==> on)
  }

  /** Every draw in `es` happens in the right collector state, starting from `on`. */
  predicate Guarded(on: bool, es: seq<Event>)
    decreases |es|
  {
    |es| == 0 || (DrawOk(on, es[0]) && Guarded(Toggle(on, es[0]), es[1..]))
  }

  lemma {:induction false} GuardedAppend(on: bool, a: seq<Event>, c: seq<Event>)
    ensures Guarded(on, a + c) <==> Guarded(on, a) && Guarded(GcOn(on, a), c)
    decreases |a|
  {
    if |a| > 0 {
      assert (a + c)[0] == a[0];
      assert (a + c)[1..] == a[1..] + c;
      GuardedAppend(Toggle(on, a[0]), a[1..], c);
    } else {
      assert a + c == c;
    }
  }

  /** The recursive reading of `Guarded` agrees with the direct one: each draw
      is checked against the collector state produced by everything before it. */
  lemma {:induction false} GuardedAt(on: bool, es: seq<Event>)
    ensures Guarded(on, es) <==> forall i :: 0 <= i < |es| ==> DrawOk(GcOn(on, es[..i]), es[i])
    decreases |es|
  {
    if |es| > 0 {
      GuardedAt(Toggle(on, es[0]), es[1..]);
      forall i | 1 <= i < |es|
        ensures GcOn(on, es[..i]) == GcOn(Toggle(on, es[0]), es[1..][..i - 1])
      {
        assert es[..i][1..] == es[1..][..i - 1];
      }
      assert es[..0] == [];
      if forall i :: 0 <= i < |es| ==> DrawOk(GcOn(on, es[..i]), es[i]) {
        forall j | 0 <= j < |es[1..]|
          ensures DrawOk(GcOn(Toggle(on, es[0]), es[1..][..j]), es[1..][j])
        {
          assert DrawOk(GcOn(on, es[..j + 1]), es[j + 1]);
        }
      }
    }
  }

  lemma {:induction false} ScrollFramesGuarded(ys: seq<int>, phase: Phase, b: Banner, cost: int -> int)
    requires phase != Hold
    ensures Guarded(false, ScrollFrames(ys, phase, b, cost))
    ensures !GcOn(false, ScrollFrames(ys, phase, b, cost))
    decreases |ys|
  {
    if |ys| > 0 {
      var head := [Draw(ys[0], phase, b), Sleep(StepDelay(cost(ys[0])))];
      ScrollFramesGuarded(ys[1..], phase, b, cost);
      assert head[1..] == [Sleep(StepDelay(cost(ys[0])))];
      GuardedAppend(false, head, ScrollFrames(ys[1..], phase, b, cost));
      GcOnAppend(false, head, ScrollFrames(ys[1..], phase, b, cost));
    }
  }

  lemma MiddleGuarded(centerY: int, b: Banner)
    ensures Guarded(false, Middle(centerY, b)) && !GcOn(false, Middle(centerY, b))
  {
    var m := Middle(centerY, b);
    assert m[4..] == [DisableGc] && m[4..][1..] == [];
    assert m[3..][1..] == m[4..] && m[2..][1..] == m[3..] && m[1..][1..] == m[2..];
    assert Guarded(true, m[4..]) && !GcOn(true, m[4..]);
    assert Guarded(true, m[3..]) && !GcOn(true, m[3..]);
    assert Guarded(true, m[2..]) && !GcOn(true, m[2..]);
    assert Guarded(true, m[1..]) && !GcOn(true, m[1..]);
  }

  lemma MiddleOffsets(centerY: int, b: Banner)
    ensures DrawOffsets(Middle(centerY, b)) == [centerY]
  {
    var m := Middle(centerY, b);
    assert m[4..] == [DisableGc] && m[4..][1..] == [];
    assert m[3..][1..] == m[4..] && m[2..][1..] == m[3..] && m[1..][1..] == m[2..];
    assert DrawOffsets(m[4..]) == [];
    assert DrawOffsets(m[3..]) == [];
    assert DrawOffsets(m[2..]) == [];
    assert DrawOffsets(m[1..]) == [centerY];
  }

  lemma {:induction false} GuardedPrefix(on: bool, es: seq<Event>, k: nat)
    requires k <= |es| && Guarded(on, es)
    ensures Guarded(on, es[..k])
  {
    assert es == es[..k] + es[k..];
    GuardedAppend(on, es[..k], es[k..]);
  }

  /** Whatever the collector state before it and wherever it raises, every
      scroll frame of a pass is drawn with the collector disabled and the
      hold frame with it enabled. */
  lemma {:induction false} CycleGuarded(on: bool, l: Layout, height: int, b: Banner, cost: int -> int, fault: Option<nat>)
    ensures var cy := Cycle(l, height, b, cost, fault);
      forall i :: 0 <= i < |cy| && cy[i].Draw? ==> (cy[i].phase == Hold <==> GcOn(on, cy[..i]))
  {
    var body := Body(l, height, b, cost);
    BodyGuarded(on, l, height, b, cost);
    var run := if fault.Some? && fault.value < |body| then body[..fault.value] else body;
    if fault.Some? && fault.value < |body| {
      GuardedPrefix(on, body, fault.value);
    }
    assert Guarded(GcOn(on, run), Close);
    GuardedAppend(on, run, Close);
    GuardedAt(on, run + Close);
  }

  lemma BodyGuarded(on: bool, l: Layout, height: int, b: Banner, cost: int -> int)
    ensures Guarded(on, Body(l, height, b, cost))
  {
    var scrollIn := ScrollFrames(Countdown(height, l.centerY), ScrollIn, b, cost);
    var scrollOut := ScrollFrames(Countdown(l.centerY, l.finalY), ScrollOut, b, cost);
    var mid := Middle(l.centerY, b);
    assert Body(l, height, b, cost) == Open + scrollIn + mid + scrollOut;
    ScrollFramesGuarded(Countdown(height, l.centerY), ScrollIn, b, cost);
    ScrollFramesGuarded(Countdown(l.centerY, l.finalY), ScrollOut, b, cost);
    OpenGuarded(on);
    MiddleGuarded(l.centerY, b);
    GuardedAppend(on, Open, scrollIn);
    GcOnAppend(on, Open, scrollIn);
    GuardedAppend(on, Open + scrollIn, mid);
    GcOnAppend(on, Open + scrollIn, mid);
    GuardedAppend(on, Open + scrollIn + mid, scrollOut);
  }

  lemma OpenGuarded(on: bool)
    ensures Guarded(on, Open) && !GcOn(on, Open)
  {
    assert Open[1..] == [DisableGc] && Open[1..][1..] == [];
  }

  /** Every `gc.disable()` comes right after a `gc.collect()`. */
  predicate CollectsFirst(es: seq<Event>) {
    forall i :: 0 <= i < |es| && es[i].DisableGc? ==> 0 < i && es[i - 1].Collect?
  }

  lemma CollectsFirstAppend(a: seq<Event>, c: seq<Event>)
    requires CollectsFirst(a) && CollectsFirst(c)
    requires |c| > 0 && c[0].DisableGc? ==> |a| > 0 && a[|a| - 1].Collect?
    ensures CollectsFirst(a + c)
  {
    forall i | 0 <= i < |a + c| && (a + c)[i].DisableGc?
      ensures 0 < i && (a + c)[i - 1].Collect?
    {
      if i >= |a| {
        assert (a + c)[i] == c[i - |a|];
        if i > |a| {
          assert (a + c)[i - 1] == c[i - 1 - |a|];
        }
      }
    }
  }

  /** The collector is switched off only straight after a collection, in
      every pass and wherever it raises. */
  lemma CycleCollectsFirst(l: Layout, height: int, b: Banner, cost: int -> int, fault: Option<nat>)
    ensures CollectsFirst(Cycle(l, height, b, cost, fault))
  {
    var scrollIn := ScrollFrames(Countdown(height, l.centerY), ScrollIn, b, cost);
    var scrollOut := ScrollFrames(Countdown(l.centerY, l.finalY), ScrollOut, b, cost);
    var mid := Middle(l.centerY, b);
    CollectsFirstAppend(Open, scrollIn);
    CollectsFirstAppend(Open + scrollIn, mid);
    CollectsFirstAppend(Open + scrollIn + mid, scrollOut);
    var body := Body(l, height, b, cost);
    assert body == Open + scrollIn + mid + scrollOut;
    var run := if fault.Some? && fault.value < |body| then body[..fault.value] else body;
    if fault.Some? && fault.value < |body| {
      CollectsFirstPrefix(body, fault.value);
    }
    CollectsFirstAppend(run, Close);
  }

  lemma CollectsFirstPrefix(es: seq<Event>, k: nat)
    requires CollectsFirst(es) && k <= |es|
    ensures CollectsFirst(es[..k])
  {
    var p := es[..k];
    assert forall i :: 0 <= i < |p| ==> p[i] == es[i];
  }

  /** Every draw in `es` shows the banner `b`. */
  predicate Shows(es: seq<Event>, b: Banner) {
    forall i :: 0 <= i < |es| && es[i].Draw? ==> es[i].shown == b
  }

  lemma ShowsAppend(a: seq<Event>, c: seq<Event>, b: Banner)
    requires Shows(a, b) && Shows(c, b)
    ensures Shows(a + c, b)
  {
    assert forall i :: |a| <= i < |a + c| ==> (a + c)[i] == c[i - |a|];
  }

  lemma ShowsPrefix(es: seq<Event>, n: nat, b: Banner)
    requires Shows(es, b) && n <= |es|
    ensures Shows(es[..n], b)
  {
    assert forall i :: 0 <= i < n ==> es[..n][i] == es[i];
  }

  /** Every frame of a pass, wherever it raises, shows the lines and the pen
      the pass was given. */
  lemma CycleShows(l: Layout, height: int, b: Banner, cost: int -> int, fault: Option<nat>)
    ensures Shows(Cycle(l, height, b, cost, fault), b)
  {
    var scrollIn := ScrollFrames(Countdown(height, l.centerY), ScrollIn, b, cost);
    var scrollOut := ScrollFrames(Countdown(l.centerY, l.finalY), ScrollOut, b, cost);
    var mid := Middle(l.centerY, b);
    var body := Body(l, height, b, cost);
    assert body == Open + scrollIn + mid + scrollOut;
    assert Shows(Open, b) && Shows(mid, b) && Shows(Close, b);
    ShowsAppend(Open, scrollIn, b);
    ShowsAppend(Open + scrollIn, mid, b);
    ShowsAppend(Open + scrollIn + mid, scrollOut, b);
    var n := |Cycle(l, height, b, cost, fault)| - |Close|;
    ShowsPrefix(body, n, b);
    ShowsAppend(body[..n], Close, b);
  }

  /** The offsets drawn, in order. */
  function DrawOffsets(es: seq<Event>): seq<int>
    decreases |es|
  {
    if |es| == 0 then []
    else (if es[0].Draw? then [es[0].y] else []) + DrawOffsets(es[1..])
  }

  lemma {:induction false} DrawOffsetsAppend(a: seq<Event>, c: seq<Event>)
    ensures DrawOffsets(a + c) == DrawOffsets(a) + DrawOffsets(c)
    decreases |a|
  {
    if |a| > 0 {
      assert (a + c)[0] == a[0];
      assert (a + c)[1..] == a[1..] + c;
      DrawOffsetsAppend(a[1..], c);
    } else {
      assert a + c == c;
    }
  }

  lemma {:induction false} ScrollFramesOffsets(ys: seq<int>, phase: Phase, b: Banner, cost: int -> int)
    ensures DrawOffsets(ScrollFrames(ys, phase, b, cost)) == ys
    decreases |ys|
  {
    if |ys| > 0 {
      var head := [Draw(ys[0], phase, b), Sleep(StepDelay(cost(ys[0])))];
      ScrollFramesOffsets(ys[1..], phase, b, cost);
      DrawOffsetsAppend(head, ScrollFrames(ys[1..], phase, b, cost));
      assert head[1..] == [Sleep(StepDelay(cost(ys[0])))];
      assert DrawOffsets(head) == [ys[0]];
      assert ys == [ys[0]] + ys[1..];
    }
  }

  /** A pass that does not raise draws the offsets `height, height-1, …,
      finalY+1`, each once and in that order, with the hold frame repeating
      the centre offset. */
  lemma CycleOffsets(count: nat, height: int, b: Banner, cost: int -> int)
    requires height >= 0
    ensures var l := LoadLayout(count, height);
      DrawOffsets(Body(l, height, b, cost)) ==
        Countdown(height, l.centerY) + [l.centerY] + Countdown(l.centerY, l.finalY)
    ensures var l := LoadLayout(count, height);
      Countdown(height, l.centerY) + Countdown(l.centerY, l.finalY) == Countdown(height, l.finalY)
  {
    var l := LoadLayout(count, height);
    LayoutOrdered(count, height);
    BodyOffsets(l, height, b, cost);
    CountdownSplit(height, l.centerY, l.finalY);
  }

  lemma BodyOffsets(l: Layout, height: int, b: Banner, cost: int -> int)
    ensures DrawOffsets(Body(l, height, b, cost)) ==
      Countdown(height, l.centerY) + [l.centerY] + Countdown(l.centerY, l.finalY)
  {
    var ins, outs := Countdown(height, l.centerY), Countdown(l.centerY, l.finalY);
    var scrollIn := ScrollFrames(ins, ScrollIn, b, cost);
    var scrollOut := ScrollFrames(outs, ScrollOut, b, cost);
    var mid := Middle(l.centerY, b);
    assert Body(l, height, b, cost) == Open + scrollIn + mid + scrollOut;
    ScrollFramesOffsets(ins, ScrollIn, b, cost);
    ScrollFramesOffsets(outs, ScrollOut, b, cost);
    MiddleOffsets(l.centerY, b);
    assert DrawOffsets(Open) == [];
    DrawOffsetsAppend(Open, scrollIn);
    assert DrawOffsets(Open + scrollIn) == ins;
    DrawOffsetsAppend(Open + scrollIn, mid);
    assert DrawOffsets(Open + scrollIn + mid) == ins + [l.centerY];
    DrawOffsetsAppend(Open + scrollIn + mid, scrollOut);
  }

  /** Wall time of a scroll phase: each frame takes its draw time plus the
      compensating sleep. */
  function PhaseTime(ys: seq<int>, cost: int -> int): int
    decreases |ys|
  {
    if |ys| == 0 then 0 else cost(ys[0]) + StepDelay(cost(ys[0])) + PhaseTime(ys[1..], cost)
  }

  /** Wall time of a stretch of a pass: a draw takes the time measured around
      it, a sleep its length, and a collector call no time. */
  function TraceTime(es: seq<Event>, cost: int -> int): int
    decreases |es|
  {
    if |es| == 0 then 0
    else
      var head := match es[0]
        case Draw(y, _, _) => cost(y)
        case Sleep(ms) => ms
        case _ => 0;
      head + TraceTime(es[1..], cost)
  }

  /** The frames a scroll phase emits take exactly its wall time. */
  lemma {:induction false} PhaseTimeOfFrames(ys: seq<int>, phase: Phase, b: Banner, cost: int -> int)
    ensures TraceTime(ScrollFrames(ys, phase, b, cost), cost) == PhaseTime(ys, cost)
    decreases |ys|
  {
    if |ys| > 0 {
      var fs := ScrollFrames(ys, phase, b, cost);
      PhaseTimeOfFrames(ys[1..], phase, b, cost);
      assert fs[1..][1..] == ScrollFrames(ys[1..], phase, b, cost);
    }
  }

  /** Drift compensation: a scroll phase never runs faster than one frame per
      `SCROLL_SPEED_MS`, and it runs at exactly that speed if and only if no
      draw took longer than the period. */
  lemma {:induction false} PhaseTimeExact(ys: seq<int>, cost: int -> int)
    ensures PhaseTime(ys, cost) >= |ys| * ScrollSpeedMs
    ensures PhaseTime(ys, cost) == |ys| * ScrollSpeedMs <==>
      forall i :: 0 <= i < |ys| ==> cost(ys[i]) <= ScrollSpeedMs
    decreases |ys|
  {
    if |ys| > 0 {
      PhaseTimeExact(ys[1..], cost);
      assert forall i :: 1 <= i < |ys| ==> ys[i] == ys[1..][i - 1];
    }
  }

  /** `draw_frame`'s skip test: a line starting at row `lineY` is drawn unless
      it is above row -10 or below the panel. */
  predicate OnScreen(lineY: int, height: int) {
    -10 <= lineY <= height
  }

  /** The indices of the lines `draw_frame` draws for a block at offset `y`. */
  function VisibleRows(count: nat, y: int, height: int): (rows: seq<nat>)
    ensures forall i: int :: i in rows <==> 0 <= i < count && OnScreen(y + LineHeight * i, height)
    ensures forall a, b :: 0 <= a < b < |rows| ==> rows[a] < rows[b]
  {
    if count == 0 then []
    else
      var init := VisibleRows(count - 1, y, height);
      assert forall a :: 0 <= a < |init| ==> init[a] in init;
      init + if OnScreen(y + LineHeight * (count - 1), height) then [count - 1] else []
  }

  /** When the message fits the panel, the hold frame draws every line. */
  lemma HoldShowsAll(count: nat, height: int)
    requires LineHeight * count <= height
    ensures var l := LoadLayout(count, height);
      forall i :: 0 <= i < count ==> i in VisibleRows(count, l.centerY, height)
  {
  }

  /** When the block is more than 17 rows taller than the panel, its last line
      starts below the panel at the hold, and the hold frame leaves it out. */
  lemma HoldCutsLongText(count: nat, height: int)
    requires height >= 0 && LineHeight * count > height + 2 * LineHeight + 1
    ensures var l := LoadLayout(count, height);
      count - 1 !in VisibleRows(count, l.centerY, height)
  {
  }

  /** One pass of the display loop on the status cell: nothing while the flag
      is clear; otherwise the cell with its flag cleared and the effects of
      showing its text, wrapped for a panel `width` by `height`. */
  function DisplayStep(s: Status, measure: string -> int, width: int, height: int,
                       cost: int -> int, fault: Option<nat>): (r: Option<(Status, seq<Event>)>)
    ensures r.None? <==> !s.newMsg
    ensures r.Some? ==> r.value.0 == s.(newMsg := false)
    ensures r.Some? ==> GcOn(false, r.value.1) && GcOn(true, r.value.1)
    ensures r.Some? ==> r.value.1[|r.value.1| - 1] == Blackout
    ensures r.Some? ==> Shows(r.value.1, Banner(WrapText(measure, width, s.text), s.color))
    ensures r.Some? && fault.None? ==>
      var c := LoadLayout(|WrapText(measure, width, s.text)|, height);
      DrawOffsets(r.value.1) == Countdown(height, c.centerY) + [c.centerY] + Countdown(c.centerY, c.finalY)
  {
    match TakeMessage(s)
    case None => None
    case Some(t) =>
      var lines := WrapText(measure, width, t.text);
      var l := LoadLayout(|lines|, height);
      var b := Banner(lines, t.color);
      var cy := Cycle(l, height, b, cost, fault);
      GcOnAfterCycle(false, l, height, b, cost, fault);
      GcOnAfterCycle(true, l, height, b, cost, fault);
      CycleShows(l, height, b, cost, fault);
      PassOffsets(l, height, b, cost);
      Some((t.cell, cy))
  }

  lemma PassOffsets(l: Layout, height: int, b: Banner, cost: int -> int)
    ensures DrawOffsets(Cycle(l, height, b, cost, None)) ==
      Countdown(height, l.centerY) + [l.centerY] + Countdown(l.centerY, l.finalY)
  {
    var body := Body(l, height, b, cost);
    BodyOffsets(l, height, b, cost);
    assert Cycle(l, height, b, cost, None) == body + Close;
    DrawOffsetsAppend(body, Close);
    assert DrawOffsets(Close) == [] by {
      assert Close[1..] == [Collect, Blackout] && Close[1..][1..] == [Blackout] && Close[1..][1..][1..] == [];
    }
  }

  /** A changed text sent to the cell is what the next pass shows, wrapped,
      on the colour it was sent with. */
  lemma UpdateShown(s: Status, text: string, color: Pen, measure: string -> int, width: int, height: int,
                    cost: int -> int, fault: Option<nat>)
    requires s.text != text
    ensures var r := DisplayStep(UpdateStatus(s, text, color), measure, width, height, cost, fault);
      r.Some? && r.value.0 == Status(text, color, false)
      && Shows(r.value.1, Banner(WrapText(measure, width, text), color))
  {
  }

  /** The cell starts with "Booting..." on orange and its flag up, so the first
      pass shows that text, wrapped, on orange, and clears the flag. */
  lemma FirstPassShowsBoot(measure: string -> int, width: int, height: int, cost: int -> int, fault: Option<nat>)
    ensures var r := DisplayStep(Boot, measure, width, height, cost, fault);
      r.Some? && r.value.0 == Status("Booting...", Orange, false)
      && Shows(r.value.1, Banner(WrapText(measure, width, "Booting..."), Orange))
  {
  }
}

=== FILE: interstate_scroll.dfy ===
/** The scrolling state machine of MQTTScrollerInterstate75w128_128vr.py: the
    `while True` loop inside `sub_cb` that holds a received message below the
    panel, scrolls it up one row per step with one pause half-way, holds the
    empty panel, and then blanks it.  Each loop iteration reads the clock once
    at its top; the model takes that reading as an input and treats the code
    between readings as instantaneous, except for the five-second sleep of the
    mid-scroll pause, which moves every later reading in that iteration on by
    5000 ms. */
module InterstateScroll {
  import opened PyText
  import opened Keywords
  import opened Optional
  import opened Palette
  import opened Wrapping
  import opened InterstateWrap

  /** `HOLD_TIME` in milliseconds. */
  const HoldTimeMs := 2000
  /** `BLANK_SCREEN_TIME` in milliseconds. */
  const BlankScreenMs := 3000
  /** `SCROLL_SPEED * 1000` with `SCROLL_SPEED = 1 / 10`: an integer difference
      passes the test exactly when it is at least 101. */
  const ScrollStepMs := 100
  /** The `time.sleep(5)` of the mid-scroll pause. */
  const MidPauseMs := 5000
  /** Pixel rows per line at scale 1. */
  const LineHeight := 8

  /** `STATE_PRE_SCROLL` … `STATE_BLANK_SCREEN`, and the loop having exited. */
  datatype ScrollState = PreScroll | Scrolling | PostScroll | BlankScreen | Finished

  function Rank(s: ScrollState): nat {
    match s
    case PreScroll => 0
    case Scrolling => 1
    case PostScroll => 2
    case BlankScreen => 3
    case Finished => 4
  }

  /** The loop's variables: `state`, `scroll`, `last_time`, `mid_pause_done`
      and `total_scroll`. */
  datatype Machine = Machine(state: ScrollState, scroll: int, lastTime: int, midPauseDone: bool, total: int)

  /** `total_scroll`: from the text's top row just below the panel to its last
      row clear above it. */
  function TotalScroll(numLines: nat, height: nat): (t: int)
    ensures t >= height + 3
  {
    numLines * LineHeight + height + BufferPixels + 1
  }

  /** The machine when the loop is entered at clock reading `t0`. */
  function Start(numLines: nat, height: nat, t0: int): Machine {
    Machine(PreScroll, 0, t0, false, TotalScroll(numLines, height))
  }

  /** What holds of the loop variables between iterations. */
  predicate Valid(m: Machine, numLines: nat, height: nat) {
    && m.total == TotalScroll(numLines, height)
    && 0 <= m.scroll <= m.total
    && (m.state == PreScroll ==> m.scroll == 0)
    && (m.state == Scrolling ==> m.scroll < m.total)
    && (Rank(m.state) >= 2 ==> m.scroll == m.total)
    && (m.midPauseDone <==> m.scroll >= m.total / 2)
  }

  lemma StartValid(numLines: nat, height: nat, t0: int)
    ensures Valid(Start(numLines, height, t0), numLines, height)
    ensures Start(numLines, height, t0).state == PreScroll
  {
  }

  /** Leaving `STATE_PRE_SCROLL` once the first hold is over. */
  function PreStep(m: Machine, now: int): Machine {
    if m.state == PreScroll && now - m.lastTime > HoldTimeMs then m.(state := Scrolling, lastTime := now) else m
  }

  /** The `STATE_SCROLLING` step: one row of scroll, the one-shot pause, and
      the switch to the post-scroll hold.  The flag says whether this step paused. */
  function ScrollStep(m: Machine, now: int): (Machine, bool) {
    if m.state == Scrolling && now - m.lastTime > ScrollStepMs then
      var s := m.scroll + 1;
      var pause := !m.midPauseDone && s >= m.total / 2;
      var clock := if pause then now + MidPauseMs else now;
      (m.(state := if s >= m.total then PostScroll else Scrolling, scroll := s,
          lastTime := clock, midPauseDone := m.midPauseDone || pause), pause)
    else (m, false)
  }

  /** Leaving `STATE_POST_SCROLL` for the blank screen; `clock` is the reading
      of `time.ticks_ms()` taken for that test. */
  function PostStep(m: Machine, clock: int): Machine {
    if m.state == PostScroll && clock - m.lastTime > HoldTimeMs then m.(state := BlankScreen, lastTime := clock) else m
  }

  /** Leaving `STATE_BLANK_SCREEN`: the panel is painted black and the loop exits. */
  function BlankStep(m: Machine, clock: int): Machine {
    if m.state == BlankScreen && clock - m.lastTime > BlankScreenMs then m.(state := Finished) else m
  }

  /** What an iteration that does not exit draws after its state checks: the
      keyword background and the outlined text block with its top-left corner
      at (x, y). */
  datatype Frame = Frame(x: int, y: int, background: Pen)

  /** One iteration: the machine after it, whether it paused mid-scroll, the
      frame it drew, and whether it painted the panel black on exit. */
  datatype Tick = Tick(next: Machine, paused: bool, frame: Option<Frame>, blackout: bool)

  /** The row the text block starts at for a given scroll. */
  function TextY(height: nat, scroll: int): int {
    height - scroll + BufferPixels
  }

  /** One iteration of the loop at clock reading `now`.  Each timer runs from
      the last recorded time, which only a phase change or a scroll step moves;
      the iteration that exits paints the panel black instead of drawing a
      frame.  An exited loop stays exited. */
  function Iterate(m: Machine, height: nat, background: Pen, now: int): (t: Tick)
    ensures Rank(t.next.state) == Rank(m.state) || Rank(t.next.state) == Rank(m.state) + 1
    ensures t.next.scroll == m.scroll || t.next.scroll == m.scroll + 1
    ensures t.next.scroll == m.scroll + 1 <==> m.state == Scrolling && now - m.lastTime > ScrollStepMs
    ensures t.next.state != m.state && m.state != PreScroll ==> t.next.lastTime >= now || t.next.state == Finished
    ensures t.paused ==> m.state == Scrolling && !m.midPauseDone && t.next.midPauseDone
    ensures m.midPauseDone ==> t.next.midPauseDone
    ensures t.frame.Some? <==> t.next.state != Finished
    ensures t.frame.Some? ==>
      t.frame.value == Frame(BufferPixels + 1, TextY(height, t.next.scroll), background)
    ensures m.state == Finished ==> t.next == m && !t.paused
    ensures m.state == PreScroll ==> (t.next.state == Scrolling <==> now - m.lastTime > HoldTimeMs)
    ensures m.state == Scrolling ==>
      (t.next.state == PostScroll <==> now - m.lastTime > ScrollStepMs && m.scroll + 1 >= m.total)
    ensures m.state == PostScroll ==> (t.next.state == BlankScreen <==> now - m.lastTime > HoldTimeMs)
    ensures m.state == BlankScreen ==> (t.next.state == Finished <==> now - m.lastTime > BlankScreenMs)
    ensures m.state == PreScroll && t.next.state == Scrolling ==> t.next.lastTime == now
    ensures t.next.scroll == m.scroll + 1 ==> t.next.lastTime == now + (if t.paused then MidPauseMs else 0)
    ensures m.state == PostScroll && t.next.state == BlankScreen ==> t.next.lastTime == now
    ensures t.next.state == m.state && t.next.scroll == m.scroll ==> t.next.lastTime == m.lastTime
    ensures t.blackout <==> m.state == BlankScreen && t.next.state == Finished
  {
    if m.state == Finished then Tick(m, false, None, false)
    else
      var a := PreStep(m, now);
      var (b, paused) := ScrollStep(a, now);
      var clock := if paused then now + MidPauseMs else now;
      var d := BlankStep(PostStep(b, clock), clock);
      var frame := if d.state == Finished then None else Some(Frame(BufferPixels + 1, TextY(height, d.scroll), background));
      Tick(d, paused, frame, d.state == Finished)
  }

  /** The loop variables stay consistent: a machine in the scroll state has
      rows left to scroll, and the post-scroll states are reached exactly
      when the whole distance has been scrolled. */
  lemma IterateKeepsValid(m: Machine, numLines: nat, height: nat, background: Pen, now: int)
    requires Valid(m, numLines, height)
    ensures var n := Iterate(m, height, background, now).next;
      Valid(n, numLines, height) && (Rank(n.state) >= 2 <==> n.scroll >= n.total)
  {
  }

  /** The pause happens on the step that brings the scroll to half the total
      distance, and on no other step. */
  lemma PauseAtHalfway(m: Machine, numLines: nat, height: nat, background: Pen, now: int)
    requires Valid(m, numLines, height)
    ensures var t := Iterate(m, height, background, now);
      t.paused <==> m.scroll < m.total / 2 <= t.next.scroll
    ensures var t := Iterate(m, height, background, now);
      t.paused ==> t.next.scroll == m.total / 2
  {
  }

  /** The whole of a run over successive clock readings: the final machine,
      how many iterations paused, the frames drawn, and whether the panel was
      painted black on exit. */
  datatype Run = Run(final: Machine, pauses: nat, frames: seq<Frame>, blackout: bool)

  /** The `while True` loop over successive clock readings, one per iteration.
      At most one frame is drawn per reading, every frame at the same column on
      the message's background; the panel is painted black exactly when the
      run exits the loop, and an exited loop does nothing more. */
  function RunLoop(m: Machine, height: nat, background: Pen, readings: seq<int>): (r: Run)
    ensures |r.frames| <= |readings|
    ensures forall i :: 0 <= i < |r.frames| ==>
      r.frames[i].x == BufferPixels + 1 && r.frames[i].background == background
    ensures Rank(r.final.state) >= Rank(m.state)
    ensures r.blackout <==> m.state != Finished && r.final.state == Finished
    ensures m.state == Finished ==> r == Run(m, 0, [], false)
    decreases |readings|
  {
    if |readings| == 0 then Run(m, 0, [], false)
    else
      var t := Iterate(m, height, background, readings[0]);
      var rest := RunLoop(t.next, height, background, readings[1..]);
      var head := if t.frame.Some? then [t.frame.value] else [];
      var frames := head + rest.frames;
      assert forall i :: |head| <= i < |frames| ==> frames[i] == rest.frames[i - |head|];
      Run(rest.final, rest.pauses + (if t.paused then 1 else 0), frames, t.blackout || rest.blackout)
  }

  /** How long each phase waits after the last recorded time before it acts. */
  function Wait(s: ScrollState): int {
    match s
    case PreScroll => HoldTimeMs
    case Scrolling => ScrollStepMs
    case PostScroll => HoldTimeMs
    case BlankScreen => BlankScreenMs
    case Finished => 0
  }

  /** Waiting restarts no timer: readings that all come within the current
      phase's wait leave the machine exactly as it was, and until the loop
      has exited each of them draws the same frame. */
  lemma {:induction false} WaitKeepsMachine(m: Machine, height: nat, background: Pen, readings: seq<int>)
    requires forall i :: 0 <= i < |readings| ==> readings[i] - m.lastTime <= Wait(m.state)
    ensures var r := RunLoop(m, height, background, readings);
      r.final == m && r.pauses == 0 && !r.blackout
    ensures var r := RunLoop(m, height, background, readings);
      m.state != Finished ==>
        r.frames == seq(|readings|, _ => Frame(BufferPixels + 1, TextY(height, m.scroll), background))
    decreases |readings|
  {
    if |readings| > 0 {
      var t := Iterate(m, height, background, readings[0]);
      assert t.next == m;
      WaitKeepsMachine(m, height, background, readings[1..]);
    }
  }

  /** A run over two stretches of readings is the run over the first followed
      by the run over the second. */
  lemma {:induction false} RunLoopAppend(m: Machine, height: nat, background: Pen, a: seq<int>, b: seq<int>)
    ensures RunLoop(m, height, background, a + b).final ==
      RunLoop(RunLoop(m, height, background, a).final, height, background, b).final
    decreases |a|
  {
    if |a| > 0 {
      assert (a + b)[0] == a[0];
      assert (a + b)[1..] == a[1..] + b;
      RunLoopAppend(Iterate(m, height, background, a[0]).next, height, background, a[1..], b);
    } else {
      assert a + b == b;
    }
  }

  /** A hold lasts exactly its time: a hold phase ends at the first reading
      more than its wait after the last recorded time, and not before. */
  lemma HoldEndsOnTime(m: Machine, height: nat, background: Pen, readings: seq<int>)
    requires m.state == PreScroll || m.state == PostScroll || m.state == BlankScreen
    requires |readings| > 0 && readings[|readings| - 1] - m.lastTime > Wait(m.state)
    requires forall i :: 0 <= i < |readings| - 1 ==> readings[i] - m.lastTime <= Wait(m.state)
    ensures Rank(RunLoop(m, height, background, readings).final.state) == Rank(m.state) + 1
  {
    var init := readings[..|readings| - 1];
    var last := readings[|readings| - 1];
    assert readings == init + [last];
    WaitKeepsMachine(m, height, background, init);
    RunLoopAppend(m, height, background, init, [last]);
    assert [last][1..] == [];
  }

  /** Over any run the loop pauses at most once per message: once if the run
      crosses the halfway point, and never otherwise. */
  lemma {:induction false} PauseAtMostOnce(m: Machine, numLines: nat, height: nat, background: Pen, readings: seq<int>)
    requires Valid(m, numLines, height)
    ensures var r := RunLoop(m, height, background, readings);
      Valid(r.final, numLines, height) &&
      r.pauses == if r.final.midPauseDone && !m.midPauseDone then 1 else 0
    decreases |readings|
  {
    if |readings| > 0 {
      var t := Iterate(m, height, background, readings[0]);
      IterateKeepsValid(m, numLines, height, background, readings[0]);
      PauseAtMostOnce(t.next, numLines, height, background, readings[1..]);
      MidPauseStays(t.next, height, background, readings[1..]);
    }
  }

  /** Once the pause is done it stays done. */
  lemma {:induction false} MidPauseStays(m: Machine, height: nat, background: Pen, readings: seq<int>)
    ensures m.midPauseDone ==> RunLoop(m, height, background, readings).final.midPauseDone
    decreases |readings|
  {
    if |readings| > 0 {
      MidPauseStays(Iterate(m, height, background, readings[0]).next, height, background, readings[1..]);
    }
  }

  /** Every frame starts at or above row `top`, and no frame starts lower
      than an earlier one. */
  predicate MovingUp(frames: seq<Frame>, top: int) {
    && (forall i :: 0 <= i < |frames| ==> frames[i].y <= top)
    && (forall i, j :: 0 <= i < j < |frames| ==> frames[j].y <= frames[i].y)
  }

  /** The text only moves up: over a run the drawn rows never increase, and
      every frame is at or above the row of the machine the run started from. */
  lemma {:induction false} FramesMoveUp(m: Machine, height: nat, background: Pen, readings: seq<int>)
    ensures MovingUp(RunLoop(m, height, background, readings).frames, TextY(height, m.scroll))
    decreases |readings|
  {
    if |readings| > 0 {
      var t := Iterate(m, height, background, readings[0]);
      var top := TextY(height, t.next.scroll);
      var rest := RunLoop(t.next, height, background, readings[1..]).frames;
      FramesMoveUp(t.next, height, background, readings[1..]);
      assert MovingUp(rest, top);
      var head: seq<Frame> := if t.frame.Some? then [t.frame.value] else [];
      var fs := head + rest;
      assert fs == RunLoop(m, height, background, readings).frames;
      assert top <= TextY(height, m.scroll);
      assert forall i :: |head| <= i < |fs| ==> fs[i] == rest[i - |head|];
      assert forall i :: 0 <= i < |head| ==> fs[i].y == top;
      assert MovingUp(fs, top);
    }
  }

  /** While the message is held before scrolling the text block, outline
      included, is wholly below the panel; once it has scrolled the full
      distance its lowest outline row is the row just above the panel. */
  lemma TextOffPanel(m: Machine, numLines: nat, height: nat, background: Pen, now: int)
    requires Valid(m, numLines, height)
    ensures var t := Iterate(m, height, background, now);
      t.frame.Some? && t.next.state == PreScroll ==> t.frame.value.y - 1 >= height
    ensures var t := Iterate(m, height, background, now);
      t.frame.Some? && Rank(t.next.state) >= 2 ==> t.frame.value.y + LineHeight * numLines == -1
  {
    IterateKeepsValid(m, numLines, height, background, now);
  }

  /** Iterations still needed to leave the loop when every reading comes late
      enough for every test to pass. */
  function Remaining(m: Machine): int {
    match m.state
    case PreScroll => m.total + 3
    case Scrolling => m.total - m.scroll + 2
    case PostScroll => 2
    case BlankScreen => 1
    case Finished => 0
  }

  /** Progress: an iteration never adds work, and one whose reading is more
      than `BLANK_SCREEN_TIME` after the last recorded time does one unit of
      it; a message therefore leaves the loop after exactly `total_scroll + 3`
      such iterations. */
  lemma Progress(m: Machine, numLines: nat, height: nat, background: Pen, now: int)
    requires Valid(m, numLines, height)
    ensures var n := Iterate(m, height, background, now).next;
      0 <= Remaining(n) <= Remaining(m)
    ensures m.state != Finished && now - m.lastTime > BlankScreenMs ==>
      Remaining(Iterate(m, height, background, now).next) == Remaining(m) - 1
    ensures Remaining(Start(numLines, height, now)) == TotalScroll(numLines, height) + 3
  {
  }

  /** The background rules tested before each frame, first match wins. */
  const BackgroundRules := [Rule("Time", Yellow), Rule("News", Red), Rule("Weather", Blue), Rule("Air", Green)]

  /** The background for a message.  The "Weather" rule picks the default
      blue, but because it is tested before "Air" it keeps a message that
      mentions "Weather" blue even when the message also mentions "Air". */
  function BackgroundPen(message: string): (p: Pen)
    ensures p == Yellow <==> Contains(message, "Time")
    ensures p == Red <==> !Contains(message, "Time") && Contains(message, "News")
    ensures p == Green <==> !Contains(message, "Time") && !Contains(message, "News")
                            && !Contains(message, "Weather") && Contains(message, "Air")
    ensures p == Blue <==> !Contains(message, "Time") && !Contains(message, "News")
                           && (Contains(message, "Weather") || !Contains(message, "Air"))
  {
    var rules := BackgroundRules;
    assert rules[0].keyword == "Time" && rules[1].keyword == "News";
    assert rules[2].keyword == "Weather" && rules[3].keyword == "Air";
    assert FirstHit(rules, message).None? ==>
      !Contains(message, rules[0].keyword) && !Contains(message, rules[1].keyword)
      && !Contains(message, rules[2].keyword) && !Contains(message, rules[3].keyword);
    FirstMatch(rules, Blue, message)
  }

  /** The keywords are looked for in the padded message, but padding cannot create
      or hide a keyword: the background is that of the received text. */
  lemma BackgroundIgnoresPadding(data: string)
    ensures BackgroundPen(Message(data)) == BackgroundPen(data)
  {
    assert Blank(Padding);
    assert IsWord("Time") && IsWord("News") && IsWord("Weather") && IsWord("Air");
    ContainsPadded(Padding, data, Padding, "Time");
    ContainsPadded(Padding, data, Padding, "News");
    ContainsPadded(Padding, data, Padding, "Weather");
    ContainsPadded(Padding, data, Padding, "Air");
  }

  /** What `sub_cb` prepares before entering the loop: the wrapped lines, the
      background and the starting machine. */
  datatype Prepared = Prepared(lines: seq<string>, background: Pen, machine: Machine)

  function Prepare(measure: string -> int, width: int, height: nat, data: string, t0: int): (p: Prepared)
    ensures WordsOfLines(p.lines) == Words(data)
    ensures p.background == BackgroundPen(data)
    ensures Valid(p.machine, |p.lines|, height) && p.machine.state == PreScroll && p.machine.lastTime == t0
    ensures p.machine.total == LineHeight * |p.lines| + height + BufferPixels + 1
  {
    var message := Message(data);
    var lines := WrapMessage(measure, width, message);
    PaddingIgnored(measure, width, data);
    BackgroundIgnoresPadding(data);
    StartValid(|lines|, height, t0);
    Prepared(lines, BackgroundPen(message), Start(|lines|, height, t0))
  }
}

=== FILE: interstate_wrap.dfy ===
/** The inline word wrap of `sub_cb` in MQTTScrollerInterstate75w128_128vr.py.
    The payload is padded with five spaces on each side and split into words;
    the candidate is always the current line, a space and the word, even while
    the line is still empty, and committed lines are `strip()`ped.  The limit is
    `width - 2 * (BUFFER_PIXELS + 1)`.  `measure` stands for
    `graphics.measure_text(_, 1)` and may be any function at all. */
module InterstateWrap {
  import opened PyText
  import opened Wrapping

  /** Blank pixels kept at each side of the text. */
  const BufferPixels := 2

  /** The spaces put on each side of the payload before wrapping. */
  const Padding := "     "

  /** `MESSAGE = "     " + DATA + "     "`. */
  function Message(data: string): string {
    Padding + data + Padding
  }

  /** The widest a wrapped line may measure on a display `width` pixels wide. */
  function Limit(width: int): int {
    width - 2 * (BufferPixels + 1)
  }

  /** One pass of the loop body for `word`. */
  function Step(measure: string -> int, limit: int, st: WrapState, word: string): WrapState
  {
    if measure(st.current + " " + word) <= limit then WrapState(st.lines, st.current + " " + word)
    else WrapState(st.lines + [Strip(st.current)], word)
  }

  /** The loop state after the loop body has run for each of `words`. */
  function Scan(measure: string -> int, limit: int, words: seq<string>): WrapState
    decreases |words|
  {
    if |words| == 0 then WrapState([], "")
    else Step(measure, limit, Scan(measure, limit, words[..|words| - 1]), words[|words| - 1])
  }

  /** After the loop: a non-empty current line is stripped and committed too. */
  function Flush(st: WrapState): seq<string>
  {
    if st.current != "" then st.lines + [Strip(st.current)] else st.lines
  }

  /** What holds of the loop state after the words `words`.  Until the first
      commit the current line is a space followed by the words so far. */
  ghost predicate Inv(measure: string -> int, limit: int, words: seq<string>, st: WrapState) {
    && WordsOfLines(st.lines) + Words(st.current) == words
    && (st.current == "" <==> |words| == 0)
    && (|words| == 0 ==> st.lines == [])
    && (st.lines == [] && |words| > 0 ==>
          && LeadSpaced(st.current)
          && measure(st.current) <= limit
          && measure(" " + words[0]) <= limit)
    && (st.lines != [] ==> Spaced(st.current) && (IsWord(st.current) || measure(st.current) <= limit))
    && (|st.lines| > 0 ==> |words| > 0 && (st.lines[0] == "" <==> measure(" " + words[0]) > limit))
    && (|st.lines| > 0 && st.lines[0] != "" ==> measure(" " + st.lines[0]) <= limit)
    && (forall i :: 0 <= i < |st.lines| ==> Spaced(st.lines[i]))
    && (forall i :: 0 < i < |st.lines| ==>
          st.lines[i] != "" && (IsWord(st.lines[i]) || measure(st.lines[i]) <= limit))
  }

  /** A space in front of a non-empty spaced line: the shape of the line being
      filled before the first commit. */
  ghost predicate LeadSpaced(s: string) {
    |s| > 1 && s[0] == ' ' && Spaced(s[1..])
  }

  /** Stripping drops exactly the leading space. */
  lemma StripLeadSpaced(s: string)
    requires LeadSpaced(s)
    ensures Strip(s) == s[1..] && Spaced(s[1..]) && s[1..] != ""
    ensures Words(s) == Words(s[1..])
  {
    SpacedNoEdge(s[1..]);
    assert s == [' '] + s[1..];
    StripLeadingBlank(' ', s[1..]);
    WordsBlankPrefix(" ", s[1..]);
  }

  lemma TailAfterSpace(a: string, w: string)
    ensures |a + " " + w| > 0
    ensures (a + " " + w)[1..] == if |a| == 0 then w else a[1..] + " " + w
  {
  }

  /** The loop state before the first commit, from the facts that make it up. */
  lemma FirstLineInv(measure: string -> int, limit: int, words: seq<string>, cur: string)
    requires |words| > 0 && Words(cur) == words && LeadSpaced(cur)
    requires measure(cur) <= limit && measure(" " + words[0]) <= limit
    ensures Inv(measure, limit, words, WrapState([], cur))
  {
    assert WordsOfLines([]) == [];
  }

  /** The very first word fits. */
  lemma AcceptFirstWord(measure: string -> int, limit: int, w: string)
    requires IsWord(w) && measure(" " + w) <= limit
    ensures Inv(measure, limit, [w], WrapState([], " " + w))
  {
    SpacedWord(w);
    TailAfterSpace("", w);
    StripLeadSpaced(" " + w);
    FirstLineInv(measure, limit, [w], " " + w);
  }

  /** The first commit has not happened yet and a later word fits. */
  lemma AcceptFirstLine(measure: string -> int, limit: int, words: seq<string>, st: WrapState, w: string)
    requires Inv(measure, limit, words, st) && IsWord(w)
    requires st.lines == [] && |words| > 0 && measure(st.current + " " + w) <= limit
    ensures Inv(measure, limit, words + [w], WrapState(st.lines, st.current + " " + w))
  {
    var cur := st.current + " " + w;
    var ws := words + [w];
    assert WordsOfLines(st.lines) == [];
    assert Words(st.current) == words;
    assert LeadSpaced(st.current) && measure(" " + words[0]) <= limit;
    SpacedWord(w);
    TailAfterSpace(st.current, w);
    StripLeadSpaced(st.current);
    SpacedExtend(st.current[1..], w);
    assert LeadSpaced(cur);
    StripLeadSpaced(cur);
    assert Words(cur) == Words(st.current[1..] + " " + w) == ws;
    assert ws[0] == words[0];
    FirstLineInv(measure, limit, ws, cur);
  }

  /** A line has been committed already and the word fits. */
  lemma AcceptLaterLine(measure: string -> int, limit: int, words: seq<string>, st: WrapState, w: string)
    requires Inv(measure, limit, words, st) && IsWord(w)
    requires st.lines != [] && measure(st.current + " " + w) <= limit
    ensures Inv(measure, limit, words + [w], WrapState(st.lines, st.current + " " + w))
  {
    var ws := words + [w];
    SpacedExtend(st.current, w);
    assert WordsOfLines(st.lines) + Words(st.current + " " + w) == ws;
    assert ws[0] == words[0];
  }

  /** The first commit when the very first word does not fit: an empty line. */
  lemma RejectFirstWord(measure: string -> int, limit: int, w: string)
    requires IsWord(w) && measure(" " + w) > limit
    ensures Inv(measure, limit, [w], WrapState([""], w))
  {
    SpacedWord(w);
    assert Spaced("") by {
      assert Join([], ' ') == "";
    }
    WordsOfLinesSnoc([], "");
    assert WordsOfLines([""]) == [];
  }

  /** The first commit of a line that holds words: it drops its leading space. */
  lemma RejectFirstLine(measure: string -> int, limit: int, words: seq<string>, st: WrapState, w: string)
    requires Inv(measure, limit, words, st) && IsWord(w)
    requires st.lines == [] && |words| > 0 && measure(st.current + " " + w) > limit
    ensures Inv(measure, limit, words + [w], WrapState([Strip(st.current)], w))
  {
    var committed := Strip(st.current);
    SpacedWord(w);
    StripLeadSpaced(st.current);
    WordsOfLinesSnoc([], committed);
    assert WordsOfLines([committed]) == words;
    HeadTail(st.current);
  }

  lemma HeadTail(s: string)
    requires |s| > 0
    ensures [s[0]] + s[1..] == s
  {
  }

  /** A later commit: the current line is already stripped. */
  lemma RejectLaterLine(measure: string -> int, limit: int, words: seq<string>, st: WrapState, w: string)
    requires Inv(measure, limit, words, st) && IsWord(w)
    requires st.lines != [] && measure(st.current + " " + w) > limit
    ensures Inv(measure, limit, words + [w], WrapState(st.lines + [Strip(st.current)], w))
  {
    var ws := words + [w];
    var lines := st.lines + [Strip(st.current)];
    SpacedWord(w);
    SpacedNoEdge(st.current);
    StripNoEdge(st.current);
    WordsOfLinesSnoc(st.lines, st.current);
    assert WordsOfLines(lines) + Words(w) == ws;
    assert ws[0] == words[0];
    assert lines[0] == st.lines[0];
    assert forall i :: 0 <= i < |st.lines| ==> lines[i] == st.lines[i];
  }

  lemma StepInv(measure: string -> int, limit: int, words: seq<string>, st: WrapState, w: string)
    requires Inv(measure, limit, words, st) && IsWord(w)
    ensures Inv(measure, limit, words + [w], Step(measure, limit, st, w))
  {
    if measure(st.current + " " + w) <= limit {
      AcceptInv(measure, limit, words, st, w);
    } else {
      RejectInv(measure, limit, words, st, w);
    }
  }

  lemma AcceptInv(measure: string -> int, limit: int, words: seq<string>, st: WrapState, w: string)
    requires Inv(measure, limit, words, st) && IsWord(w)
    requires measure(st.current + " " + w) <= limit
    ensures Inv(measure, limit, words + [w], Step(measure, limit, st, w))
  {
    var next := WrapState(st.lines, st.current + " " + w);
    assert Step(measure, limit, st, w) == next;
    if |words| == 0 {
      assert st.current == "" && st.lines == [];
      assert st.current + " " + w == " " + w;
      assert words + [w] == [w];
      AcceptFirstWord(measure, limit, w);
    } else if st.lines == [] {
      AcceptFirstLine(measure, limit, words, st, w);
    } else {
      AcceptLaterLine(measure, limit, words, st, w);
    }
  }

  lemma RejectInv(measure: string -> int, limit: int, words: seq<string>, st: WrapState, w: string)
    requires Inv(measure, limit, words, st) && IsWord(w)
    requires measure(st.current + " " + w) > limit
    ensures Inv(measure, limit, words + [w], Step(measure, limit, st, w))
  {
    var next := WrapState(st.lines + [Strip(st.current)], w);
    assert Step(measure, limit, st, w) == next;
    if |words| == 0 {
      assert st.current == "" && st.lines == [];
      assert st.current + " " + w == " " + w;
      assert Strip("") == "" && [] + [""] == [""];
      assert words + [w] == [w];
      RejectFirstWord(measure, limit, w);
    } else if st.lines == [] {
      RejectFirstLine(measure, limit, words, st, w);
    } else {
      RejectLaterLine(measure, limit, words, st, w);
    }
  }

  lemma {:induction false} ScanInv(measure: string -> int, limit: int, words: seq<string>)
    requires AllWords(words)
    ensures Inv(measure, limit, words, Scan(measure, limit, words))
    decreases |words|
  {
    if |words| > 0 {
      var init := words[..|words| - 1];
      var w := words[|words| - 1];
      assert init + [w] == words;
      ScanInv(measure, limit, init);
      StepInv(measure, limit, init, Scan(measure, limit, init), w);
    }
  }

  /** Spaced lines have no edge whitespace and no line break. */
  lemma SpacedLines(lines: seq<string>)
    requires forall i :: 0 <= i < |lines| ==> Spaced(lines[i])
    ensures forall i :: 0 <= i < |lines| ==> NoEdgeSpace(lines[i])
    ensures forall k, i :: 0 <= k < |lines| && 0 <= i < |lines[k]| ==> lines[k][i] != '\n'
  {
    forall k | 0 <= k < |lines|
      ensures NoEdgeSpace(lines[k])
      ensures forall i :: 0 <= i < |lines[k]| ==> lines[k][i] != '\n'
    {
      SpacedNoEdge(lines[k]);
    }
  }

  /** What the lines committed at the end of the loop satisfy. */
  ghost predicate Wrapped(measure: string -> int, limit: int, words: seq<string>, lines: seq<string>) {
    && WordsOfLines(lines) == words
    && (lines == [] <==> words == [])
    && (forall i :: 0 <= i < |lines| ==> Spaced(lines[i]))
    && (forall i :: 0 < i < |lines| ==> lines[i] != "" && (IsWord(lines[i]) || measure(lines[i]) <= limit))
    && (|lines| > 0 ==> |words| > 0 && (lines[0] == "" <==> measure(" " + words[0]) > limit))
    && (|lines| > 0 && lines[0] != "" ==> measure(" " + lines[0]) <= limit)
  }

  lemma FlushFirstLine(measure: string -> int, limit: int, words: seq<string>, cur: string)
    requires LeadSpaced(cur) && Words(cur) == words && |words| > 0
    requires measure(cur) <= limit && measure(" " + words[0]) <= limit
    ensures Wrapped(measure, limit, words, [Strip(cur)])
  {
    StripLeadSpaced(cur);
    var line := cur[1..];
    WordsOfLinesSnoc([], line);
    assert WordsOfLines([line]) == Words(line);
    HeadTail(cur);
    assert " " + line == cur;
  }

  lemma FlushLaterLine(measure: string -> int, limit: int, words: seq<string>, st: WrapState)
    requires Inv(measure, limit, words, st) && st.lines != []
    ensures Wrapped(measure, limit, words, Flush(st))
  {
    SpacedNoEdge(st.current);
    StripNoEdge(st.current);
    var lines := st.lines + [st.current];
    assert Flush(st) == lines;
    WordsOfLinesSnoc(st.lines, st.current);
    assert lines[0] == st.lines[0];
    assert forall i :: 0 <= i < |st.lines| ==> lines[i] == st.lines[i];
  }

  lemma FlushWrapped(measure: string -> int, limit: int, words: seq<string>, st: WrapState)
    requires Inv(measure, limit, words, st)
    ensures Wrapped(measure, limit, words, Flush(st))
  {
    if st.lines != [] {
      FlushLaterLine(measure, limit, words, st);
    } else if st.current != "" {
      assert WordsOfLines(st.lines) == [];
      FlushFirstLine(measure, limit, words, st.current);
    }
  }

  /** The line as the loop held it when the next word was tried on it: the
      first line still had the leading space that `strip()` removed when it
      was committed. */
  function Tried(i: int, line: string): string {
    if i == 0 && line != "" then " " + line else line
  }

  /** The greedy rule: every line but the last ended because the first word
      of the next line, tried on it after a space, measured more than the
      limit. */
  predicate Greedy(measure: string -> int, limit: int, lines: seq<string>) {
    forall i :: 0 < i < |lines| ==>
      |Words(lines[i])| > 0 && measure(Tried(i - 1, lines[i - 1]) + " " + Words(lines[i])[0]) > limit
  }

  /** The committed lines are greedy, and so is the last of them with respect
      to the line being filled. */
  predicate InvGreedy(measure: string -> int, limit: int, st: WrapState) {
    && Greedy(measure, limit, st.lines)
    && (|st.lines| > 0 ==>
          |Words(st.current)| > 0
          && measure(Tried(|st.lines| - 1, st.lines[|st.lines| - 1]) + " " + Words(st.current)[0]) > limit)
  }

  lemma GreedySnoc(measure: string -> int, limit: int, lines: seq<string>, line: string)
    requires Greedy(measure, limit, lines)
    requires |lines| > 0 ==>
      |Words(line)| > 0 && measure(Tried(|lines| - 1, lines[|lines| - 1]) + " " + Words(line)[0]) > limit
    ensures Greedy(measure, limit, lines + [line])
  {
    var ext := lines + [line];
    forall i | 0 < i < |ext|
      ensures |Words(ext[i])| > 0 && measure(Tried(i - 1, ext[i - 1]) + " " + Words(ext[i])[0]) > limit
    {
      assert ext[i - 1] == lines[i - 1];
      if i < |lines| {
        assert ext[i] == lines[i];
      } else {
        assert ext[i] == line;
      }
    }
  }

  /** Committing the line being filled strips exactly what `Tried` puts back. */
  lemma TriedStrip(measure: string -> int, limit: int, words: seq<string>, st: WrapState)
    requires Inv(measure, limit, words, st)
    ensures Tried(|st.lines|, Strip(st.current)) == st.current
  {
    if |words| == 0 {
      assert st.current == "";
      assert Strip(st.current) == "";
    } else if st.lines == [] {
      StripLeadSpaced(st.current);
      HeadTail(st.current);
      assert " " + st.current[1..] == st.current;
    } else {
      SpacedNoEdge(st.current);
      StripNoEdge(st.current);
    }
  }

  lemma AcceptGreedy(measure: string -> int, limit: int, words: seq<string>, st: WrapState, w: string)
    requires Inv(measure, limit, words, st) && InvGreedy(measure, limit, st) && IsWord(w)
    ensures InvGreedy(measure, limit, WrapState(st.lines, st.current + " " + w))
  {
    if |st.lines| > 0 {
      SpacedExtend(st.current, w);
      SpacedJoin(st.current);
      assert Words(st.current + " " + w)[0] == Words(st.current)[0];
    }
  }

  lemma RejectGreedy(measure: string -> int, limit: int, words: seq<string>, st: WrapState, w: string)
    requires Inv(measure, limit, words, st) && InvGreedy(measure, limit, st) && IsWord(w)
    requires measure(st.current + " " + w) > limit
    ensures InvGreedy(measure, limit, WrapState(st.lines + [Strip(st.current)], w))
  {
    var committed := Strip(st.current);
    StripKeepsWords(st.current);
    if |st.lines| > 0 {
      SpacedJoin(st.current);
    }
    GreedySnoc(measure, limit, st.lines, committed);
    TriedStrip(measure, limit, words, st);
    SpacedWord(w);
    var lines := st.lines + [committed];
    assert lines[|lines| - 1] == committed;
  }

  lemma StepGreedy(measure: string -> int, limit: int, words: seq<string>, st: WrapState, w: string)
    requires Inv(measure, limit, words, st) && InvGreedy(measure, limit, st) && IsWord(w)
    ensures InvGreedy(measure, limit, Step(measure, limit, st, w))
  {
    if measure(st.current + " " + w) <= limit {
      assert Step(measure, limit, st, w) == WrapState(st.lines, st.current + " " + w);
      AcceptGreedy(measure, limit, words, st, w);
    } else {
      assert Step(measure, limit, st, w) == WrapState(st.lines + [Strip(st.current)], w);
      RejectGreedy(measure, limit, words, st, w);
    }
  }

  lemma {:induction false} ScanGreedy(measure: string -> int, limit: int, words: seq<string>)
    requires AllWords(words)
    ensures InvGreedy(measure, limit, Scan(measure, limit, words))
    decreases |words|
  {
    if |words| > 0 {
      var init := words[..|words| - 1];
      var w := words[|words| - 1];
      assert Scan(measure, limit, words) == Step(measure, limit, Scan(measure, limit, init), w);
      ScanGreedy(measure, limit, init);
      ScanInv(measure, limit, init);
      StepGreedy(measure, limit, init, Scan(measure, limit, init), w);
    }
  }

  lemma FlushGreedy(measure: string -> int, limit: int, words: seq<string>, st: WrapState)
    requires Inv(measure, limit, words, st) && InvGreedy(measure, limit, st)
    ensures Greedy(measure, limit, Flush(st))
  {
    if st.current != "" {
      StripKeepsWords(st.current);
      if |st.lines| > 0 {
        SpacedJoin(st.current);
      }
      GreedySnoc(measure, limit, st.lines, Strip(st.current));
    }
  }

  /** Every line grew word by word through the loop's test: the first line
      from its first word on, tried after the leading space that `strip()`
      later removed; a later line from its second word on, since the word that
      opens it was rejected by the line before, not tested on its own. */
  predicate LinesGrown(measure: string -> int, limit: int, lines: seq<string>) {
    && (|lines| > 0 ==> Grown(measure, limit, " ", 1, lines[0]))
    && (forall i :: 0 < i < |lines| ==> Grown(measure, limit, "", 2, lines[i]))
  }

  /** The committed lines grew through the test, and so did the line being
      filled, which still carries its leading space until the first commit. */
  predicate InvGrown(measure: string -> int, limit: int, st: WrapState) {
    && LinesGrown(measure, limit, st.lines)
    && Grown(measure, limit, if st.lines == [] then " " else "", if st.lines == [] then 1 else 2, st.current)
  }

  lemma GrownSnoc(measure: string -> int, limit: int, st: WrapState)
    requires InvGrown(measure, limit, st)
    ensures LinesGrown(measure, limit, st.lines + [Strip(st.current)])
  {
    var ext := st.lines + [Strip(st.current)];
    StripKeepsWords(st.current);
    forall i | 0 < i < |ext|
      ensures Grown(measure, limit, "", 2, ext[i])
    {
      if i < |st.lines| {
        assert ext[i] == st.lines[i];
      } else {
        assert ext[i] == Strip(st.current);
      }
    }
    assert ext[0] == if |st.lines| > 0 then st.lines[0] else Strip(st.current);
  }

  /** The very first word passed the test after its leading space. */
  lemma AcceptFirstWordGrown(measure: string -> int, limit: int, w: string)
    requires IsWord(w) && measure(" " + w) <= limit
    ensures Grown(measure, limit, " ", 1, " " + w)
  {
    SpacedWord(w);
    TailAfterSpace("", w);
    StripLeadSpaced(" " + w);
    GrownWord(measure, limit, " ", 1, w);
  }

  /** A later word passed the test on the first line, which still carries its
      leading space. */
  lemma AcceptFirstLineGrown(measure: string -> int, limit: int, cur: string, w: string)
    requires LeadSpaced(cur) && IsWord(w) && Grown(measure, limit, " ", 1, cur)
    requires measure(cur + " " + w) <= limit
    ensures Grown(measure, limit, " ", 1, cur + " " + w)
  {
    var line := cur[1..];
    StripLeadSpaced(cur);
    HeadTail(cur);
    assert " " + (line + " " + w) == cur + " " + w;
    GrownExtend(measure, limit, " ", 1, line, w);
    SpacedExtend(line, w);
    TailAfterSpace(cur, w);
    StripLeadSpaced(cur + " " + w);
  }

  lemma AcceptGrown(measure: string -> int, limit: int, words: seq<string>, st: WrapState, w: string)
    requires Inv(measure, limit, words, st) && InvGrown(measure, limit, st) && IsWord(w)
    requires measure(st.current + " " + w) <= limit
    ensures InvGrown(measure, limit, WrapState(st.lines, st.current + " " + w))
  {
    if |words| == 0 {
      assert st.current + " " + w == " " + w;
      AcceptFirstWordGrown(measure, limit, w);
    } else if st.lines == [] {
      AcceptFirstLineGrown(measure, limit, st.current, w);
    } else {
      assert "" + (st.current + " " + w) == st.current + " " + w;
      GrownExtend(measure, limit, "", 2, st.current, w);
    }
  }

  lemma StepGrown(measure: string -> int, limit: int, words: seq<string>, st: WrapState, w: string)
    requires Inv(measure, limit, words, st) && InvGrown(measure, limit, st) && IsWord(w)
    ensures InvGrown(measure, limit, Step(measure, limit, st, w))
  {
    if measure(st.current + " " + w) <= limit {
      assert Step(measure, limit, st, w) == WrapState(st.lines, st.current + " " + w);
      AcceptGrown(measure, limit, words, st, w);
    } else {
      assert Step(measure, limit, st, w) == WrapState(st.lines + [Strip(st.current)], w);
      GrownSnoc(measure, limit, st);
      GrownWord(measure, limit, "", 2, w);
    }
  }

  lemma {:induction false} ScanGrown(measure: string -> int, limit: int, words: seq<string>)
    requires AllWords(words)
    ensures InvGrown(measure, limit, Scan(measure, limit, words))
    decreases |words|
  {
    if |words| == 0 {
      GrownEmpty(measure, limit, " ", 1);
    } else {
      var init := words[..|words| - 1];
      var w := words[|words| - 1];
      assert Scan(measure, limit, words) == Step(measure, limit, Scan(measure, limit, init), w);
      ScanGrown(measure, limit, init);
      ScanInv(measure, limit, init);
      StepGrown(measure, limit, init, Scan(measure, limit, init), w);
    }
  }

  /** What the whole loop and its final commit establish. */
  lemma WrapLines(measure: string -> int, limit: int, words: seq<string>)
    requires AllWords(words)
    ensures Wrapped(measure, limit, words, Flush(Scan(measure, limit, words)))
    ensures Greedy(measure, limit, Flush(Scan(measure, limit, words)))
    ensures LinesGrown(measure, limit, Flush(Scan(measure, limit, words)))
  {
    var st := Scan(measure, limit, words);
    ScanInv(measure, limit, words);
    ScanGreedy(measure, limit, words);
    FlushWrapped(measure, limit, words, st);
    FlushGreedy(measure, limit, words, st);
    ScanGrown(measure, limit, words);
    if st.current != "" {
      GrownSnoc(measure, limit, st);
    }
  }

  /** The wrapped lines of `text` (already padded) on a display `width` pixels
      wide.  They hold exactly the words of the text, in order; every line is
      stripped and spaced; an empty line appears only first, exactly when the
      first word with its leading space is too wide; a later line containing a
      space measured within the limit, and a non-empty first line measured
      within it with the space in front; every word after the first of a line
      passed the test when it was added, and so did the first word of the
      first line, after the leading space; and a line ends only when the next
      word, tried on it, does not fit. */
  function WrapMessage(measure: string -> int, width: int, text: string): (lines: seq<string>)
    ensures WordsOfLines(lines) == Words(text)
    ensures lines == [] <==> Blank(text)
    ensures forall i :: 0 <= i < |lines| ==> Spaced(lines[i]) && NoEdgeSpace(lines[i])
    ensures forall k, i :: 0 <= k < |lines| && 0 <= i < |lines[k]| ==> lines[k][i] != '\n'
    ensures forall i :: 0 < i < |lines| ==> lines[i] != ""
    ensures forall i :: 0 < i < |lines| && ' ' in lines[i] ==> measure(lines[i]) <= Limit(width)
    ensures |lines| > 0 ==>
      |Words(text)| > 0 && (lines[0] == "" <==> measure(" " + Words(text)[0]) > Limit(width))
    ensures |lines| > 0 && lines[0] != "" ==> measure(" " + lines[0]) <= Limit(width)
    ensures Greedy(measure, Limit(width), lines)
    ensures |lines| > 0 ==> Grown(measure, Limit(width), " ", 1, lines[0])
    ensures forall i :: 0 < i < |lines| ==> Grown(measure, Limit(width), "", 2, lines[i])
  {
    var words := Words(text);
    var lines := Flush(Scan(measure, Limit(width), words));
    WrapLines(measure, Limit(width), words);
    WordsEmptyIffBlank(text);
    SpacedLines(lines);
    lines
  }

  /** The five-space padding never changes the wrapped lines, because `split()`
      discards whitespace. */
  lemma PaddingIgnored(measure: string -> int, width: int, data: string)
    ensures WrapMessage(measure, width, Message(data)) == WrapMessage(measure, width, data)
  {
    assert Blank(Padding);
    WordsPadded(Padding, data, Padding);
  }

  /** The lines are joined with line breaks for drawing and split again by the
      drawing routine: that gives the lines back, except that no lines at all
      come back as one empty line. */
  lemma DrawnLines(measure: string -> int, width: int, text: string)
    ensures var lines := WrapMessage(measure, width, text);
      SplitOn(Join(lines, '\n'), '\n') == if lines == [] then [""] else lines
  {
    var lines := WrapMessage(measure, width, text);
    if lines != [] {
      SplitOnJoin(lines, '\n');
    }
  }
}

=== FILE: keywords.dfy ===
/** Ordered keyword rules: the first rule whose keyword occurs in the text
    decides the colour, later rules are not consulted, and a fallback applies
    when none matches (the `if "Time" in text ... elif ...` chains of both
    scripts). */
module Keywords {
  import opened PyText
  import opened Optional

  datatype Rule<C> = Rule(keyword: string, color: C)

  /** The index of the first rule whose keyword occurs in `text`. */
  function FirstHit<C>(rules: seq<Rule<C>>, text: string): (hit: Option<nat>)
    ensures hit.Some? ==> hit.value < |rules| && Contains(text, rules[hit.value].keyword)
    ensures hit.Some? ==> forall j :: 0 <= j < hit.value ==> !Contains(text, rules[j].keyword)
    ensures hit.None? <==> forall j :: 0 <= j < |rules| ==> !Contains(text, rules[j].keyword)
  {
    if |rules| == 0 then None
    else if Contains(text, rules[0].keyword) then Some(0)
    else
      match FirstHit(rules[1..], text)
      case None => None
      case Some(i) => Some(i + 1)
  }

  /** The colour the first matching rule gives, or `fallback`. */
  function FirstMatch<C>(rules: seq<Rule<C>>, fallback: C, text: string): C
  {
    match FirstHit(rules, text)
    case None => fallback
    case Some(i) => rules[i].color
  }
}

=== FILE: optional.dfy ===
/** A value that may be absent. */
module Optional {

  datatype Option<+T> = None | Some(value: T)
}

=== FILE: palette.dfy ===
/** Colours: the named pens both scripts create, and brightness scaling of an
    RGB triple (`create_pen` in updatedscroller.py, `scale_color` in
    MQTTScrollerInterstate75w128_128vr.py). */
module Palette {
  import opened PyInt

  datatype Rgb = Rgb(r: int, g: int, b: int)

  /** The pens both scripts define once at start-up. */
  datatype Pen = Black | White | Red | Green | Blue | Yellow | Orange

  /** The full-brightness channel values each pen is created from. */
  function Base(p: Pen): Rgb {
    match p
    case Black => Rgb(0, 0, 0)
    case White => Rgb(255, 255, 255)
    case Red => Rgb(255, 0, 0)
    case Green => Rgb(0, 255, 0)
    case Blue => Rgb(0, 0, 255)
    case Yellow => Rgb(255, 255, 0)
    case Orange => Rgb(255, 165, 0)
  }

  /** Brightness is a percentage. */
  predicate ValidBrightness(brightness: int) {
    0 <= brightness <= 100
  }

  predicate InGamut(c: Rgb) {
    0 <= c.r <= 255 && 0 <= c.g <= 255 && 0 <= c.b <= 255
  }

  /** Every channel of `dim` lies between zero and the same channel of `full`. */
  predicate Dimmer(dim: Rgb, full: Rgb) {
    0 <= dim.r <= full.r && 0 <= dim.g <= full.g && 0 <= dim.b <= full.b
  }

  /** `int(c * brightness / 100)`: one channel scaled by a brightness percentage. */
  function ScaleChannel(c: int, brightness: int): (s: int)
    ensures brightness == 100 ==> s == c
    ensures brightness == 0 ==> s == 0
    ensures 0 <= c && ValidBrightness(brightness) ==> 0 <= s <= c
    ensures 0 <= c && 0 <= brightness ==> s == (c * brightness) / 100
  {
    TruncDiv(c * brightness, 100)
  }

  /** `scale_color`: each channel scaled on its own. */
  function ScaleColor(color: Rgb, brightness: int): (scaled: Rgb)
    ensures brightness == 100 ==> scaled == color
    ensures brightness == 0 ==> scaled == Rgb(0, 0, 0)
    ensures Dimmer(color, color) && ValidBrightness(brightness) ==> Dimmer(scaled, color)
  {
    Rgb(ScaleChannel(color.r, brightness), ScaleChannel(color.g, brightness), ScaleChannel(color.b, brightness))
  }

  /** The colour a pen is created with at a given brightness.  Black is created
      unscaled in the 128x128 script; scaling zero gives zero anyway. */
  function CreatePen(p: Pen, brightness: int): (c: Rgb)
    ensures ValidBrightness(brightness) ==> InGamut(c) && Dimmer(c, Base(p))
    ensures brightness == 100 ==> c == Base(p)
  {
    if p == Black then Rgb(0, 0, 0) else ScaleColor(Base(p), brightness)
  }

  /** A higher brightness never gives a darker channel. */
  lemma ScaleMonotone(c: int, low: int, high: int)
    requires 0 <= c && 0 <= low <= high
    ensures ScaleChannel(c, low) <= ScaleChannel(c, high)
  {
    var a, b := c * low, c * high;
    assert b == a + c * (high - low);
    assert c * (high - low) >= 0;
    var x, y := ScaleChannel(c, low), ScaleChannel(c, high);
    assert x * 100 <= a && b < y * 100 + 100;
  }
}

=== FILE: py_int.dfy ===
/** Python integer conversions used by the scripts. */
module PyInt {

  /** `int(a / d)` for a positive divisor: true division followed by truncation
      toward zero.  Dafny's `/` rounds toward negative infinity instead, so the
      negative case is written out.  The quotients in the scripts are small
      enough for the floating-point division to be exact. */
  function TruncDiv(a: int, d: int): (q: int)
    requires d > 0
    ensures a >= 0 ==> 0 <= q && q * d <= a < q * d + d
    ensures a < 0 ==> q <= 0 && q * d - d < a <= q * d
  {
    if a >= 0 then DivBounds(a, d); a / d
    else DivBounds(-a, d); -((-a) / d)
  }

  /** Floor division of a natural number, as bounds on the quotient. */
  lemma DivBounds(n: int, d: int)
    requires n >= 0 && d > 0
    ensures 0 <= n / d && (n / d) * d <= n < (n / d) * d + d
  {
    var q, r := n / d, n % d;
    assert n == d * q + r && 0 <= r < d;
    assert q * d == d * q;
  }

  function Max(a: int, b: int): (m: int)
    ensures m >= a && m >= b && (m == a || m == b)
  {
    if a >= b then a else b
  }
}

=== FILE: py_text.dfy ===
/** The parts of MicroPython's string semantics that the display scripts rely on:
    whitespace splitting (`str.split()`), splitting on one separator
    (`str.split('\n')`), joining (`sep.join(...)`), `str.strip()` and the
    substring test `k in s`.  MicroPython classifies whitespace with its ASCII
    table only, so a whitespace character is a space or one of `\t` .. `\r`. */
module PyText {

  predicate IsSpace(c: char) {
    c == ' ' || '\t' <= c <= '\r'
  }

  /** Every character is whitespace (the empty string included). */
  predicate Blank(s: string) {
    forall i :: 0 <= i < |s| ==> IsSpace(s[i])
  }

  /** A non-empty run of non-whitespace characters: what `split()` yields. */
  predicate IsWord(w: string) {
    |w| > 0 && forall i :: 0 <= i < |w| ==> !IsSpace(w[i])
  }

  predicate AllWords(ws: seq<string>) {
    forall i :: 0 <= i < |ws| ==> IsWord(ws[i])
  }

  /** Neither the first nor the last character is whitespace. */
  predicate NoEdgeSpace(s: string) {
    |s| == 0 || (!IsSpace(s[0]) && !IsSpace(s[|s| - 1]))
  }

  /** The longest prefix of `s` without whitespace. */
  function LeadingWord(s: string): (w: string)
    ensures |w| <= |s| && w == s[..|w|]
    ensures forall i :: 0 <= i < |w| ==> !IsSpace(w[i])
    ensures |w| < |s| ==> IsSpace(s[|w|])
  {
    if |s| == 0 || IsSpace(s[0]) then "" else [s[0]] + LeadingWord(s[1..])
  }

  /** `s.split()`: the maximal whitespace-free runs of `s`, in order. */
  function Words(s: string): (ws: seq<string>)
    ensures AllWords(ws)
    decreases |s|
  {
    if |s| == 0 then []
    else if IsSpace(s[0]) then Words(s[1..])
    else
      var w := LeadingWord(s);
      [w] + Words(s[|w|..])
  }

  /** `[sep].join(parts)` for a one-character separator. */
  function Join(parts: seq<string>, sep: char): string
  {
    if |parts| == 0 then ""
    else if |parts| == 1 then parts[0]
    else parts[0] + [sep] + Join(parts[1..], sep)
  }

  /** `s.split(sep)`: always at least one piece, empty pieces kept. */
  function SplitOn(s: string, sep: char): (pieces: seq<string>)
    ensures |pieces| >= 1
  {
    if |s| == 0 then [""]
    else if s[0] == sep then [""] + SplitOn(s[1..], sep)
    else
      var rest := SplitOn(s[1..], sep);
      [[s[0]] + rest[0]] + rest[1..]
  }

  /** How many whitespace characters `s` starts with. */
  function LeadingBlanks(s: string): (n: nat)
    ensures n <= |s|
    ensures forall i :: 0 <= i < n ==> IsSpace(s[i])
    ensures n == |s| || !IsSpace(s[n])
  {
    if |s| == 0 || !IsSpace(s[0]) then 0
    else
      var n := 1 + LeadingBlanks(s[1..]);
      assert forall i :: 1 <= i < |s| ==> s[i] == s[1..][i - 1];
      n
  }

  /** How many whitespace characters `s` ends with. */
  function TrailingBlanks(s: string): (n: nat)
    ensures n <= |s|
    ensures forall i :: |s| - n <= i < |s| ==> IsSpace(s[i])
    ensures n == |s| || !IsSpace(s[|s| - n - 1])
  {
    if |s| == 0 || !IsSpace(s[|s| - 1]) then 0
    else
      var n := 1 + TrailingBlanks(s[..|s| - 1]);
      assert forall i :: 0 <= i < |s| - 1 ==> s[i] == s[..|s| - 1][i];
      n
  }

  /** `s.lstrip()`: drops the leading whitespace and nothing else. */
  function TrimStart(s: string): (r: string)
    ensures |r| == 0 || !IsSpace(r[0])
  {
    s[LeadingBlanks(s)..]
  }

  /** `s.rstrip()`: drops the trailing whitespace and nothing else. */
  function TrimEnd(s: string): (r: string)
    ensures |r| == 0 || !IsSpace(r[|r| - 1])
  {
    s[..|s| - TrailingBlanks(s)]
  }

  /** `s.strip()`. */
  function Strip(s: string): (r: string)
    ensures NoEdgeSpace(r)
    ensures |r| <= |s|
  {
    var t := TrimStart(s);
    var r := TrimEnd(t);
    assert |r| > 0 ==> r[0] == t[0];
    r
  }

  /** `k` occurs in `s` starting at index `i`. */
  ghost predicate OccursAt(k: string, s: string, i: int) {
    0 <= i && i + |k| <= |s| && s[i..i + |k|] == k
  }

  /** Python's `k in s` on strings. */
  function Contains(s: string, k: string): (b: bool)
    ensures b <==> exists i :: OccursAt(k, s, i)
    decreases |s|
  {
    if |s| < |k| then false
    else if s[..|k|] == k then (assert OccursAt(k, s, 0); true)
    else
      var b := Contains(s[1..], k);
      assert forall i :: OccursAt(k, s[1..], i) <==> OccursAt(k, s, i + 1) by {
        forall i | OccursAt(k, s, i + 1)
          ensures OccursAt(k, s[1..], i)
        {
          assert s[1..][i..i + |k|] == s[i + 1..i + 1 + |k|];
        }
        forall i | OccursAt(k, s[1..], i)
          ensures OccursAt(k, s, i + 1)
        {
          assert s[1..][i..i + |k|] == s[i + 1..i + 1 + |k|];
        }
      }
      assert !OccursAt(k, s, 0);
      assert forall i :: OccursAt(k, s, i) ==> i >= 1 && OccursAt(k, s[1..], i - 1);
      b
  }

  // ---------------------------------------------------------------------------
  // Lemmas about split()

  /** `split()` of a string yields nothing exactly when the string is blank. */
  lemma {:induction false} WordsEmptyIffBlank(s: string)
    ensures Words(s) == [] <==> Blank(s)
    decreases |s|
  {
    if |s| > 0 {
      if IsSpace(s[0]) {
        WordsEmptyIffBlank(s[1..]);
        assert Blank(s) <==> Blank(s[1..]) by {
          assert forall i :: 0 <= i < |s| - 1 ==> s[1..][i] == s[i + 1];
        }
      } else {
        assert !Blank(s);
      }
    }
  }

  /** A word splits to itself. */
  lemma WordsOfWord(w: string)
    requires IsWord(w)
    ensures Words(w) == [w]
  {
    LeadingWholeWord(w);
    assert w[|w|..] == "";
  }

  lemma {:induction false} LeadingWholeWord(w: string)
    requires forall i :: 0 <= i < |w| ==> !IsSpace(w[i])
    ensures LeadingWord(w) == w
    decreases |w|
  {
    if |w| > 0 {
      LeadingWholeWord(w[1..]);
      assert [w[0]] + w[1..] == w;
    }
  }

  /** Appending text behind a whitespace character does not change the leading word. */
  lemma {:induction false} LeadingWordStops(a: string, c: char, b: string)
    requires IsSpace(c)
    ensures LeadingWord(a + [c] + b) == LeadingWord(a)
    decreases |a|
  {
    if |a| > 0 && !IsSpace(a[0]) {
      assert (a + [c] + b)[1..] == a[1..] + [c] + b;
      LeadingWordStops(a[1..], c, b);
    }
  }

  /** A whitespace character separates the words on its two sides. */
  lemma {:induction false} WordsAround(a: string, c: char, b: string)
    requires IsSpace(c)
    ensures Words(a + [c] + b) == Words(a) + Words(b)
    decreases |a|
  {
    var s := a + [c] + b;
    if |a| == 0 {
      assert s[1..] == b;
    } else if IsSpace(a[0]) {
      assert s[1..] == a[1..] + [c] + b;
      WordsAround(a[1..], c, b);
    } else {
      LeadingWordStops(a, c, b);
      var w := LeadingWord(a);
      assert |w| <= |a|;
      assert s[|w|..] == a[|w|..] + [c] + b;
      WordsAround(a[|w|..], c, b);
    }
  }

  /** Leading whitespace does not change the words. */
  lemma {:induction false} WordsBlankPrefix(p: string, s: string)
    requires Blank(p)
    ensures Words(p + s) == Words(s)
    decreases |p|
  {
    if |p| > 0 {
      assert (p + s)[0] == p[0];
      assert (p + s)[1..] == p[1..] + s;
      assert Blank(p[1..]) by {
        assert forall i :: 0 <= i < |p| - 1 ==> p[1..][i] == p[i + 1];
      }
      WordsBlankPrefix(p[1..], s);
    } else {
      assert p + s == s;
    }
  }

  /** Trailing whitespace does not change the words. */
  lemma WordsBlankSuffix(s: string, p: string)
    requires Blank(p)
    ensures Words(s + p) == Words(s)
  {
    if |p| > 0 {
      assert s + p == s + [p[0]] + p[1..];
      WordsAround(s, p[0], p[1..]);
      assert Blank(p[1..]) by {
        assert forall i :: 0 <= i < |p| - 1 ==> p[1..][i] == p[i + 1];
      }
      WordsEmptyIffBlank(p[1..]);
    } else {
      assert s + p == s;
    }
  }

  /** Whitespace padding on both sides does not change the words. */
  lemma WordsPadded(p: string, s: string, q: string)
    requires Blank(p) && Blank(q)
    ensures Words(p + s + q) == Words(s)
  {
    WordsBlankPrefix(p, s + q);
    assert p + s + q == p + (s + q);
    WordsBlankSuffix(s, q);
  }

  /** `lstrip()` leaves a blank prefix behind. */
  lemma TrimStartSplit(s: string)
    ensures var n := LeadingBlanks(s);
      s[..n] + TrimStart(s) == s && Blank(s[..n])
  {
    BlankHead(s, LeadingBlanks(s));
  }

  lemma BlankHead(s: string, n: nat)
    requires n <= |s|
    requires forall i :: 0 <= i < n ==> IsSpace(s[i])
    ensures s[..n] + s[n..] == s && Blank(s[..n])
  {
    var h := s[..n];
    assert forall i :: 0 <= i < |h| ==> h[i] == s[i];
  }

  /** `rstrip()` leaves a blank suffix behind. */
  lemma TrimEndSplit(s: string)
    ensures var n := |s| - TrailingBlanks(s);
      TrimEnd(s) + s[n..] == s && Blank(s[n..])
  {
    BlankTail(s, |s| - TrailingBlanks(s));
  }

  lemma BlankTail(s: string, n: nat)
    requires n <= |s|
    requires forall i :: n <= i < |s| ==> IsSpace(s[i])
    ensures s[..n] + s[n..] == s && Blank(s[n..])
  {
    var t := s[n..];
    assert forall i :: 0 <= i < |t| ==> t[i] == s[n + i];
  }

  lemma TrimStartKeepsWords(s: string)
    ensures Words(TrimStart(s)) == Words(s)
  {
    TrimStartSplit(s);
    WordsBlankPrefix(s[..LeadingBlanks(s)], TrimStart(s));
  }

  lemma TrimEndKeepsWords(s: string)
    ensures Words(TrimEnd(s)) == Words(s)
  {
    TrimEndSplit(s);
    WordsBlankSuffix(TrimEnd(s), s[|s| - TrailingBlanks(s)..]);
  }

  /** `strip()` only removes whitespace, so the words survive it. */
  lemma StripKeepsWords(s: string)
    ensures Words(Strip(s)) == Words(s)
  {
    TrimStartKeepsWords(s);
    TrimEndKeepsWords(TrimStart(s));
  }

  /** `strip()` leaves a string without edge whitespace alone. */
  lemma StripNoEdge(s: string)
    requires NoEdgeSpace(s)
    ensures Strip(s) == s
  {
  }

  /** `strip()` removes one leading blank in front of a string without edge whitespace. */
  lemma StripLeadingBlank(c: char, s: string)
    requires IsSpace(c) && |s| > 0 && NoEdgeSpace(s)
    ensures Strip([c] + s) == s
  {
    assert ([c] + s)[1..] == s;
  }

  // ---------------------------------------------------------------------------
  // Lemmas about join()

  lemma {:induction false} JoinSnoc(parts: seq<string>, last: string, sep: char)
    requires |parts| > 0
    ensures Join(parts + [last], sep) == Join(parts, sep) + [sep] + last
    decreases |parts|
  {
    if |parts| > 1 {
      assert (parts + [last])[1..] == parts[1..] + [last];
      JoinSnoc(parts[1..], last, sep);
    }
  }

  /** Joining words with single spaces and splitting again gives the words back. */
  lemma {:induction false} WordsOfJoin(ws: seq<string>)
    requires AllWords(ws)
    ensures Words(Join(ws, ' ')) == ws
    decreases |ws|
  {
    if |ws| == 1 {
      WordsOfWord(ws[0]);
    } else if |ws| > 1 {
      WordsOfJoin(ws[1..]);
      WordsAround(ws[0], ' ', Join(ws[1..], ' '));
      WordsOfWord(ws[0]);
    }
  }

  /** Words joined with single spaces: the first and last characters are word characters,
      and every character is either a word character or that single space. */
  lemma {:induction false} JoinOfWordsShape(ws: seq<string>)
    requires AllWords(ws) && |ws| > 0
    ensures |Join(ws, ' ')| > 0 && NoEdgeSpace(Join(ws, ' '))
    ensures forall i :: 0 <= i < |Join(ws, ' ')| ==>
      Join(ws, ' ')[i] == ' ' || !IsSpace(Join(ws, ' ')[i])
    decreases |ws|
  {
    if |ws| > 1 {
      JoinOfWordsShape(ws[1..]);
      var j := Join(ws, ' ');
      var tail := Join(ws[1..], ' ');
      assert j == ws[0] + [' '] + tail;
      forall i | 0 <= i < |j|
        ensures j[i] == ' ' || !IsSpace(j[i])
      {
        if i < |ws[0]| {
          assert j[i] == ws[0][i];
        } else if i > |ws[0]| {
          assert j[i] == tail[i - |ws[0]| - 1];
        }
      }
      assert j[|j| - 1] == tail[|tail| - 1];
    }
  }

  /** Splitting at the first separator: the part before it is a whole piece. */
  lemma {:induction false} SplitOnAround(a: string, sep: char, b: string)
    requires forall i :: 0 <= i < |a| ==> a[i] != sep
    ensures SplitOn(a + [sep] + b, sep) == [a] + SplitOn(b, sep)
    decreases |a|
  {
    var s := a + [sep] + b;
    if |a| == 0 {
      assert s[1..] == b;
    } else {
      assert s[1..] == a[1..] + [sep] + b;
      SplitOnAround(a[1..], sep, b);
      assert [a[0]] + a[1..] == a;
    }
  }

  /** A string without the separator is a single piece. */
  lemma {:induction false} SplitOnNone(a: string, sep: char)
    requires forall i :: 0 <= i < |a| ==> a[i] != sep
    ensures SplitOn(a, sep) == [a]
    decreases |a|
  {
    if |a| > 0 {
      SplitOnNone(a[1..], sep);
      assert [a[0]] + a[1..] == a;
    }
  }

  /** `sep.join(parts).split(sep)` gives back a non-empty list of separator-free parts. */
  lemma {:induction false} SplitOnJoin(parts: seq<string>, sep: char)
    requires |parts| > 0
    requires forall k, i :: 0 <= k < |parts| && 0 <= i < |parts[k]| ==> parts[k][i] != sep
    ensures SplitOn(Join(parts, sep), sep) == parts
    decreases |parts|
  {
    if |parts| == 1 {
      SplitOnNone(parts[0], sep);
    } else {
      SplitOnJoin(parts[1..], sep);
      SplitOnAround(parts[0], sep, Join(parts[1..], sep));
    }
  }

  // ---------------------------------------------------------------------------
  // Lemmas about `in`

  /** A keyword without whitespace cannot overlap whitespace padding, so padding
      a string does not change whether the keyword occurs in it. */
  lemma ContainsPadded(p: string, s: string, q: string, k: string)
    requires Blank(p) && Blank(q) && IsWord(k)
    ensures Contains(p + s + q, k) == Contains(s, k)
  {
    if Contains(p + s + q, k) {
      var i :| OccursAt(k, p + s + q, i);
      OccursInside(p, s, q, k, i);
    }
    if Contains(s, k) {
      var i :| OccursAt(k, s, i);
      OccursShifted(p, s, q, k, i);
    }
  }

  /** An occurrence of a word in padded text lies inside the unpadded text. */
  lemma OccursInside(p: string, s: string, q: string, k: string, i: int)
    requires Blank(p) && Blank(q) && IsWord(k) && OccursAt(k, p + s + q, i)
    ensures OccursAt(k, s, i - |p|)
  {
    var m := p + s + q;
    var j := i + |k| - 1;
    assert m[i] == m[i..i + |k|][0] == k[0];
    assert m[j] == m[i..i + |k|][|k| - 1] == k[|k| - 1];
    assert forall t :: 0 <= t < |p| ==> m[t] == p[t];
    assert forall t :: |p| + |s| <= t < |m| ==> m[t] == q[t - |p| - |s|];
    assert i >= |p|;
    assert i + |k| <= |p| + |s|;
    assert m[i..i + |k|] == s[i - |p|..i - |p| + |k|];
  }

  lemma OccursShifted(p: string, s: string, q: string, k: string, i: int)
    requires OccursAt(k, s, i)
    ensures OccursAt(k, p + s + q, i + |p|)
  {
    assert (p + s + q)[i + |p|..i + |p| + |k|] == s[i..i + |k|];
  }
}

=== FILE: scroller_wrap.dfy ===
/** `wrap_text` of updatedscroller.py: greedy word wrap against an abstract
    text measurer.  A line grows while the measured candidate stays within
    `width - 4`; the candidate is the word alone when the line is still empty,
    otherwise the line, a space and the word.  `measure` stands for
    `graphics.measure_text(_, 1)` and may be any function at all. */
module ScrollerWrap {
  import opened PyText
  import opened Wrapping

  /** Horizontal margin: a line must measure at most `width - Margin`. */
  const Margin := 4

  /** The line tried for the next word. */
  function Candidate(current: string, w: string): string {
    if current != "" then current + " " + w else w
  }

  /** One pass of the loop body for `word`. */
  function Step(measure: string -> int, limit: int, st: WrapState, word: string): WrapState
  {
    var candidate := Candidate(st.current, word);
    if measure(candidate) <= limit then WrapState(st.lines, candidate)
    else WrapState(st.lines + [st.current], word)
  }

  /** The loop state after the loop body has run for each of `words`. */
  function Scan(measure: string -> int, limit: int, words: seq<string>): WrapState
    decreases |words|
  {
    if |words| == 0 then WrapState([], "")
    else Step(measure, limit, Scan(measure, limit, words[..|words| - 1]), words[|words| - 1])
  }

  /** After the loop: a non-empty current line is committed too. */
  function Flush(st: WrapState): seq<string>
  {
    if st.current != "" then st.lines + [st.current] else st.lines
  }

  /** A line may exceed the limit only when it is empty or a single word. */
  predicate Fits(measure: string -> int, limit: int, line: string) {
    line == "" || IsWord(line) || measure(line) <= limit
  }

  /** What holds of the loop state after the words `words`. */
  ghost predicate Inv(measure: string -> int, limit: int, words: seq<string>, st: WrapState) {
    InvWords(measure, limit, words, st) && InvShape(measure, limit, st)
  }

  /** The words so far are the words of the lines and the current line, and
      the first line is empty exactly when the first word alone is too wide. */
  ghost predicate InvWords(measure: string -> int, limit: int, words: seq<string>, st: WrapState) {
    && WordsOfLines(st.lines) + Words(st.current) == words
    && (st.current == "" <==> |words| == 0)
    && (|words| == 0 ==> st.lines == [])
    && (|words| > 0 && st.lines == [] ==> measure(words[0]) <= limit)
    && (|st.lines| > 0 ==> |words| > 0 && (st.lines[0] == "" <==> measure(words[0]) > limit))
  }

  /** Every line, the current one included, is spaced and fits, and only the
      first line can be empty. */
  ghost predicate InvShape(measure: string -> int, limit: int, st: WrapState) {
    && (forall i :: 0 < i < |st.lines| ==> st.lines[i] != "")
    && (forall i :: 0 <= i < |st.lines| ==> Fits(measure, limit, st.lines[i]) && Spaced(st.lines[i]))
    && Fits(measure, limit, st.current) && Spaced(st.current)
  }

  lemma StepInv(measure: string -> int, limit: int, words: seq<string>, st: WrapState, w: string)
    requires Inv(measure, limit, words, st) && IsWord(w)
    ensures Inv(measure, limit, words + [w], Step(measure, limit, st, w))
  {
    var candidate := Candidate(st.current, w);
    if measure(candidate) <= limit {
      assert Step(measure, limit, st, w) == WrapState(st.lines, candidate);
      CandidateShape(st.current, w);
      AcceptWords(measure, limit, words, st, w, candidate);
      AcceptShape(measure, limit, st, candidate);
    } else {
      assert Step(measure, limit, st, w) == WrapState(st.lines + [st.current], w);
      SpacedWord(w);
      RejectWords(measure, limit, words, st, w);
      RejectShape(measure, limit, st, w);
    }
  }

  lemma CandidateShape(current: string, w: string)
    requires Spaced(current) && IsWord(w)
    ensures var c := Candidate(current, w);
      c != "" && (current == "" ==> c == w) && Spaced(c) && Words(c) == Words(current) + [w]
  {
    SpacedWord(w);
    if current != "" {
      SpacedExtend(current, w);
    }
  }

  lemma AcceptShape(measure: string -> int, limit: int, st: WrapState, candidate: string)
    requires InvShape(measure, limit, st) && Spaced(candidate) && measure(candidate) <= limit
    ensures InvShape(measure, limit, WrapState(st.lines, candidate))
  {
  }

  lemma AcceptWords(measure: string -> int, limit: int, words: seq<string>, st: WrapState, w: string, candidate: string)
    requires InvWords(measure, limit, words, st)
    requires candidate != "" && (st.current == "" ==> candidate == w)
    requires Words(candidate) == Words(st.current) + [w]
    requires measure(candidate) <= limit
    ensures InvWords(measure, limit, words + [w], WrapState(st.lines, candidate))
  {
    var ws := words + [w];
    AppendWord(WordsOfLines(st.lines), Words(st.current), words, w);
    assert WordsOfLines(st.lines) + Words(candidate) == ws;
    assert |ws| > 0 && ws[0] == if |words| > 0 then words[0] else w;
  }

  lemma AppendWord(a: seq<string>, b: seq<string>, words: seq<string>, w: string)
    requires a + b == words
    ensures a + (b + [w]) == words + [w]
  {
  }

  lemma RejectWords(measure: string -> int, limit: int, words: seq<string>, st: WrapState, w: string)
    requires InvWords(measure, limit, words, st) && IsWord(w)
    requires Words(w) == [w]
    requires measure(if st.current != "" then st.current + " " + w else w) > limit
    ensures InvWords(measure, limit, words + [w], WrapState(st.lines + [st.current], w))
  {
    var ws := words + [w];
    var lines := st.lines + [st.current];
    WordsOfLinesSnoc(st.lines, st.current);
    assert WordsOfLines(lines) + Words(w) == ws;
    assert |ws| > 0 && ws[0] == if |words| > 0 then words[0] else w;
    assert lines[0] == if |st.lines| > 0 then st.lines[0] else st.current;
  }

  lemma RejectShape(measure: string -> int, limit: int, st: WrapState, w: string)
    requires InvShape(measure, limit, st) && IsWord(w) && Spaced(w)
    requires |st.lines| > 0 ==> st.current != ""
    ensures InvShape(measure, limit, WrapState(st.lines + [st.current], w))
  {
    var lines := st.lines + [st.current];
    assert forall i :: 0 <= i < |st.lines| ==> lines[i] == st.lines[i];
  }

  lemma {:induction false} ScanInv(measure: string -> int, limit: int, words: seq<string>)
    requires AllWords(words)
    ensures Inv(measure, limit, words, Scan(measure, limit, words))
    decreases |words|
  {
    if |words| > 0 {
      var init := words[..|words| - 1];
      var w := words[|words| - 1];
      assert init + [w] == words;
      assert Scan(measure, limit, words) == Step(measure, limit, Scan(measure, limit, init), w);
      ScanInv(measure, limit, init);
      StepInv(measure, limit, init, Scan(measure, limit, init), w);
    }
  }

  /** The greedy rule: every line but the last ended because the first word
      of the next line, tried on it, measured more than the limit. */
  predicate Greedy(measure: string -> int, limit: int, lines: seq<string>) {
    forall i :: 0 < i < |lines| ==>
      |Words(lines[i])| > 0 && measure(Candidate(lines[i - 1], Words(lines[i])[0])) > limit
  }

  /** The committed lines are greedy, and so is the last of them with respect
      to the line being filled. */
  predicate InvGreedy(measure: string -> int, limit: int, st: WrapState) {
    && Greedy(measure, limit, st.lines)
    && (|st.lines| > 0 ==>
          |Words(st.current)| > 0
          && measure(Candidate(st.lines[|st.lines| - 1], Words(st.current)[0])) > limit)
  }

  lemma GreedySnoc(measure: string -> int, limit: int, lines: seq<string>, line: string)
    requires Greedy(measure, limit, lines)
    requires |lines| > 0 ==>
      |Words(line)| > 0 && measure(Candidate(lines[|lines| - 1], Words(line)[0])) > limit
    ensures Greedy(measure, limit, lines + [line])
  {
    var ext := lines + [line];
    forall i | 0 < i < |ext|
      ensures |Words(ext[i])| > 0 && measure(Candidate(ext[i - 1], Words(ext[i])[0])) > limit
    {
      assert ext[i - 1] == lines[i - 1];
      if i < |lines| {
        assert ext[i] == lines[i];
      } else {
        assert ext[i] == line;
      }
    }
  }

  lemma StepGreedy(measure: string -> int, limit: int, words: seq<string>, st: WrapState, w: string)
    requires Inv(measure, limit, words, st) && InvGreedy(measure, limit, st) && IsWord(w)
    ensures InvGreedy(measure, limit, Step(measure, limit, st, w))
  {
    var candidate := Candidate(st.current, w);
    if measure(candidate) <= limit {
      assert Step(measure, limit, st, w) == WrapState(st.lines, candidate);
      if |st.lines| > 0 {
        CandidateShape(st.current, w);
        SpacedJoin(st.current);
        assert Words(candidate)[0] == Words(st.current)[0];
      }
    } else {
      assert Step(measure, limit, st, w) == WrapState(st.lines + [st.current], w);
      if |st.lines| > 0 {
        SpacedJoin(st.current);
      }
      GreedySnoc(measure, limit, st.lines, st.current);
      SpacedWord(w);
    }
  }

  lemma {:induction false} ScanGreedy(measure: string -> int, limit: int, words: seq<string>)
    requires AllWords(words)
    ensures InvGreedy(measure, limit, Scan(measure, limit, words))
    decreases |words|
  {
    if |words| > 0 {
      var init := words[..|words| - 1];
      var w := words[|words| - 1];
      assert Scan(measure, limit, words) == Step(measure, limit, Scan(measure, limit, init), w);
      ScanGreedy(measure, limit, init);
      ScanInv(measure, limit, init);
      StepGreedy(measure, limit, init, Scan(measure, limit, init), w);
    }
  }

  lemma FlushGreedy(measure: string -> int, limit: int, words: seq<string>, st: WrapState)
    requires Inv(measure, limit, words, st) && InvGreedy(measure, limit, st)
    ensures Greedy(measure, limit, Flush(st))
  {
    if st.current != "" {
      GreedySnoc(measure, limit, st.lines, st.current);
    }
  }

  lemma WrapGreedy(measure: string -> int, limit: int, words: seq<string>)
    requires AllWords(words)
    ensures Greedy(measure, limit, Flush(Scan(measure, limit, words)))
  {
    ScanInv(measure, limit, words);
    ScanGreedy(measure, limit, words);
    FlushGreedy(measure, limit, words, Scan(measure, limit, words));
  }

  /** Every line grew word by word through the loop's test: the first line
      from its first word on, a later line from its second, since the word
      that opens a later line was rejected by the line before, not tested
      alone. */
  predicate LinesGrown(measure: string -> int, limit: int, lines: seq<string>) {
    && (|lines| > 0 ==> Grown(measure, limit, "", 1, lines[0]))
    && (forall i :: 0 < i < |lines| ==> Grown(measure, limit, "", 2, lines[i]))
  }

  /** The committed lines grew through the test, and so did the line being filled. */
  predicate InvGrown(measure: string -> int, limit: int, st: WrapState) {
    && LinesGrown(measure, limit, st.lines)
    && Grown(measure, limit, "", if st.lines == [] then 1 else 2, st.current)
  }

  lemma GrownSnoc(measure: string -> int, limit: int, st: WrapState)
    requires InvGrown(measure, limit, st)
    ensures LinesGrown(measure, limit, st.lines + [st.current])
  {
    var ext := st.lines + [st.current];
    forall i | 0 < i < |ext|
      ensures Grown(measure, limit, "", 2, ext[i])
    {
      if i < |st.lines| {
        assert ext[i] == st.lines[i];
      } else {
        assert ext[i] == st.current;
      }
    }
    assert ext[0] == if |st.lines| > 0 then st.lines[0] else st.current;
  }

  lemma StepGrown(measure: string -> int, limit: int, words: seq<string>, st: WrapState, w: string)
    requires Inv(measure, limit, words, st) && InvGrown(measure, limit, st) && IsWord(w)
    ensures InvGrown(measure, limit, Step(measure, limit, st, w))
  {
    var candidate := Candidate(st.current, w);
    if measure(candidate) <= limit {
      assert Step(measure, limit, st, w) == WrapState(st.lines, candidate);
      if st.current == "" {
        assert "" + w == w;
        GrownWord(measure, limit, "", 1, w);
      } else {
        assert "" + (st.current + " " + w) == candidate;
        GrownExtend(measure, limit, "", if st.lines == [] then 1 else 2, st.current, w);
      }
    } else {
      assert Step(measure, limit, st, w) == WrapState(st.lines + [st.current], w);
      GrownSnoc(measure, limit, st);
      GrownWord(measure, limit, "", 2, w);
    }
  }

  lemma {:induction false} ScanGrown(measure: string -> int, limit: int, words: seq<string>)
    requires AllWords(words)
    ensures InvGrown(measure, limit, Scan(measure, limit, words))
    decreases |words|
  {
    if |words| == 0 {
      GrownEmpty(measure, limit, "", 1);
    } else {
      var init := words[..|words| - 1];
      var w := words[|words| - 1];
      assert Scan(measure, limit, words) == Step(measure, limit, Scan(measure, limit, init), w);
      ScanGrown(measure, limit, init);
      ScanInv(measure, limit, init);
      StepGrown(measure, limit, init, Scan(measure, limit, init), w);
    }
  }

  lemma WrapGrown(measure: string -> int, limit: int, words: seq<string>)
    requires AllWords(words)
    ensures LinesGrown(measure, limit, Flush(Scan(measure, limit, words)))
  {
    var st := Scan(measure, limit, words);
    ScanGrown(measure, limit, words);
    if st.current != "" {
      GrownSnoc(measure, limit, st);
    }
  }

  /** `wrap_text(text)` on a display `width` pixels wide.  The lines hold
      exactly the words of the text, in order, each line joined with single
      spaces; only an empty line or a single word can measure more than the
      limit; an empty line appears only first, and exactly when the first word
      alone is too wide; every word after the first of a line passed the test
      when it was added, and so did the first word of the first line; and a
      line ends only when the next word does not fit on it. */
  function WrapText(measure: string -> int, width: int, text: string): (lines: seq<string>)
    ensures WordsOfLines(lines) == Words(text)
    ensures lines == [] <==> Blank(text)
    ensures forall i :: 0 <= i < |lines| ==> Spaced(lines[i])
    ensures forall i :: 0 <= i < |lines| ==> Fits(measure, width - Margin, lines[i])
    ensures forall i :: 0 <= i < |lines| && ' ' in lines[i] ==> measure(lines[i]) <= width - Margin
    ensures forall i :: 0 < i < |lines| ==> lines[i] != ""
    ensures |lines| > 0 ==>
      |Words(text)| > 0 && (lines[0] == "" <==> measure(Words(text)[0]) > width - Margin)
    ensures forall i :: 0 < i < |lines| ==>
      |Words(lines[i])| > 0 && measure(Candidate(lines[i - 1], Words(lines[i])[0])) > width - Margin
    ensures |lines| > 0 ==> Grown(measure, width - Margin, "", 1, lines[0])
    ensures forall i :: 0 < i < |lines| ==> Grown(measure, width - Margin, "", 2, lines[i])
  {
    var limit := width - Margin;
    var words := Words(text);
    ScanInv(measure, limit, words);
    WrapGreedy(measure, limit, words);
    WrapGrown(measure, limit, words);
    WordsEmptyIffBlank(text);
    var st := Scan(measure, limit, words);
    FlushWords(measure, limit, words, st);
    FlushShape(measure, limit, st);
    Flush(st)
  }

  lemma FlushWords(measure: string -> int, limit: int, words: seq<string>, st: WrapState)
    requires InvWords(measure, limit, words, st)
    ensures WordsOfLines(Flush(st)) == words
    ensures Flush(st) == [] <==> words == []
    ensures |Flush(st)| > 0 ==> |words| > 0 && (Flush(st)[0] == "" <==> measure(words[0]) > limit)
  {
    WordsOfLinesSnoc(st.lines, st.current);
    if st.current != "" {
      assert Flush(st)[0] == if |st.lines| > 0 then st.lines[0] else st.current;
    }
  }

  lemma FlushShape(measure: string -> int, limit: int, st: WrapState)
    requires InvShape(measure, limit, st)
    ensures forall i :: 0 <= i < |Flush(st)| ==> Spaced(Flush(st)[i]) && Fits(measure, limit, Flush(st)[i])
    ensures forall i :: 0 <= i < |Flush(st)| && ' ' in Flush(st)[i] ==> measure(Flush(st)[i]) <= limit
    ensures forall i :: 0 < i < |Flush(st)| ==> Flush(st)[i] != ""
  {
    var lines := Flush(st);
    assert forall i :: 0 <= i < |st.lines| ==> lines[i] == st.lines[i];
    forall i | 0 <= i < |lines| && ' ' in lines[i]
      ensures measure(lines[i]) <= limit
    {
      assert !IsWord(lines[i]);
    }
  }

  /** Joining the non-empty lines with single spaces restores the text's words
      joined with single spaces: nothing is lost, split or repeated. */
  lemma WrapRejoins(measure: string -> int, width: int, text: string)
    ensures Join(NonEmpty(WrapText(measure, width, text)), ' ') == Join(Words(text), ' ')
  {
    RejoinLines(WrapText(measure, width, text));
  }
}

=== FILE: status_cell.dfy ===
/** The one-slot "latest status" cell of updatedscroller.py: the network side
    writes it through `update_status` (also from the inbound message handler
    `sub_cb`), and the display loop takes a message from it when `new_msg` is
    set.  There is no queue: a newer text overwrites the slot, and a text equal
    to the current one is ignored. */
module StatusCell {
  import opened PyText
  import opened Optional
  import opened Palette
  import opened Keywords

  /** The shared `state` dictionary. */
  datatype Status = Status(text: string, color: Pen, newMsg: bool)

  /** The cell at start-up. */
  const Boot := Status("Booting...", Orange, true)

  /** `update_status(text, color)`. */
  function UpdateStatus(s: Status, text: string, color: Pen): (r: Status)
    ensures r.text == text
    ensures r.newMsg <==> s.newMsg || s.text != text
    ensures s.text == text ==> r == s
    ensures s.text != text ==> r.color == color && r.newMsg
  {
    if s.text != text then Status(text, color, true) else s
  }

  /** What the display loop takes: the cell with the flag cleared, and the
      text and colour to show. */
  datatype Taken = Taken(cell: Status, text: string, color: Pen)

  /** The display loop's `while not state["new_msg"]` wait followed by the
      load: nothing while the flag is clear. */
  function TakeMessage(s: Status): (r: Option<Taken>)
    ensures r.None? <==> !s.newMsg
    ensures r.Some? ==> r.value.text == s.text && r.value.color == s.color
    ensures r.Some? ==> !r.value.cell.newMsg && r.value.cell.text == s.text && r.value.cell.color == s.color
  {
    if s.newMsg then Some(Taken(s.(newMsg := false), s.text, s.color)) else None
  }

  /** A changed text is delivered to the display with its colour. */
  lemma UpdateDelivers(s: Status, text: string, color: Pen)
    requires s.text != text
    ensures TakeMessage(UpdateStatus(s, text, color)) == Some(Taken(Status(text, color, false), text, color))
  {
  }

  /** A message is taken once: the cell has nothing more to give until the
      next change. */
  lemma TakenOnce(s: Status)
    requires TakeMessage(s).Some?
    ensures TakeMessage(TakeMessage(s).value.cell).None?
  {
  }

  /** Sending the text on display again, in whatever colour, does not show it again. */
  lemma RepeatIgnored(s: Status, color: Pen)
    requires TakeMessage(s).Some?
    ensures var t := TakeMessage(s).value;
      TakeMessage(UpdateStatus(t.cell, t.text, color)).None?
  {
  }

  /** The cell after a run of updates with no display in between. */
  function UpdateAll(s: Status, updates: seq<(string, Pen)>): Status
  {
    if |updates| == 0 then s
    else
      var last := updates[|updates| - 1];
      UpdateStatus(UpdateAll(s, updates[..|updates| - 1]), last.0, last.1)
  }

  /** Update `i` of the run brings a text different from the one before it. */
  predicate Changes(s: Status, updates: seq<(string, Pen)>, i: int)
    requires 0 <= i < |updates|
  {
    updates[i].0 != if i == 0 then s.text else updates[i - 1].0
  }

  /** No update after `j` changes the text. */
  predicate LastChange(s: Status, updates: seq<(string, Pen)>, j: int)
    requires 0 <= j < |updates|
  {
    forall i :: j < i < |updates| ==> !Changes(s, updates, i)
  }

  lemma ChangesOfPrefix(s: Status, updates: seq<(string, Pen)>, n: nat)
    requires n <= |updates|
    ensures forall i :: 0 <= i < n ==> (Changes(s, updates[..n], i) <==> Changes(s, updates, i))
  {
  }

  /** After a run of updates the cell holds the last text sent. */
  lemma UpdatesKeepLastText(s: Status, updates: seq<(string, Pen)>)
    ensures UpdateAll(s, updates).text == if |updates| == 0 then s.text else updates[|updates| - 1].0
  {
  }

  /** The flag is up after a run of updates exactly when it was up before or
      some update changed the text. */
  lemma {:induction false} UpdatesRaiseFlag(s: Status, updates: seq<(string, Pen)>)
    ensures UpdateAll(s, updates).newMsg <==>
      s.newMsg || exists i :: 0 <= i < |updates| && Changes(s, updates, i)
    decreases |updates|
  {
    if |updates| > 0 {
      var n := |updates| - 1;
      var init := updates[..n];
      UpdatesRaiseFlag(s, init);
      UpdatesKeepLastText(s, init);
      ChangesOfPrefix(s, updates, n);
      if Changes(s, updates, n) {
        assert exists i :: 0 <= i < |updates| && Changes(s, updates, i);
      } else {
        assert (exists i :: 0 <= i < |updates| && Changes(s, updates, i)) ==>
               (exists i :: 0 <= i < n && Changes(s, init, i));
      }
    }
  }

  /** A run of updates none of which changes the text leaves the cell as it was. */
  lemma {:induction false} UpdatesWithoutChange(s: Status, updates: seq<(string, Pen)>)
    requires forall i :: 0 <= i < |updates| ==> !Changes(s, updates, i)
    ensures UpdateAll(s, updates) == s
    decreases |updates|
  {
    if |updates| > 0 {
      var n := |updates| - 1;
      ChangesOfPrefix(s, updates, n);
      UpdatesWithoutChange(s, updates[..n]);
      UpdatesKeepLastText(s, updates[..n]);
      assert !Changes(s, updates, n);
    }
  }

  /** After a run of updates the cell holds the colour of the last update that
      changed the text. */
  lemma {:induction false} UpdatesKeepLastColor(s: Status, updates: seq<(string, Pen)>, j: int)
    requires 0 <= j < |updates| && Changes(s, updates, j) && LastChange(s, updates, j)
    ensures UpdateAll(s, updates).color == updates[j].1
    decreases |updates|
  {
    var n := |updates| - 1;
    var init := updates[..n];
    UpdatesKeepLastText(s, init);
    if j < n {
      ChangesOfPrefix(s, updates, n);
      assert !Changes(s, updates, n);
      assert LastChange(s, init, j);
      UpdatesKeepLastColor(s, init, j);
    } else {
      assert Changes(s, updates, n);
    }
  }

  /** The colour rule of `sub_cb`, first match wins. */
  const KeywordRules := [Rule("Time", Yellow), Rule("News", Red), Rule("Air", Green)]

  /** The colour `sub_cb` gives a received text: yellow for "Time", else red
      for "News", else green for "Air", else blue. */
  function KeywordColor(text: string): (p: Pen)
    ensures p == Yellow <==> Contains(text, "Time")
    ensures p == Red <==> !Contains(text, "Time") && Contains(text, "News")
    ensures p == Green <==> !Contains(text, "Time") && !Contains(text, "News") && Contains(text, "Air")
    ensures p == Blue <==> !Contains(text, "Time") && !Contains(text, "News") && !Contains(text, "Air")
  {
    var rules := KeywordRules;
    assert rules[0].keyword == "Time" && rules[1].keyword == "News" && rules[2].keyword == "Air";
    assert FirstHit(rules, text).None? ==> !Contains(text, rules[0].keyword) && !Contains(text, rules[1].keyword) && !Contains(text, rules[2].keyword);
    FirstMatch(KeywordRules, Blue, text)
  }

  /** `sub_cb`: a received text goes into the cell with its keyword colour. */
  function Receive(s: Status, text: string): (r: Status)
    ensures r.text == text
    ensures s.text != text ==> r.newMsg && r.color == KeywordColor(text)
    ensures s.text == text ==> r == s
  {
    UpdateStatus(s, text, KeywordColor(text))
  }
}

=== FILE: wrapping.dfy ===
/** What the two greedy word-wrap loops share: the loop state, the words a list
    of lines holds, and the shape of a line built by joining words with single
    spaces. */
module Wrapping {
  import opened PyText

  /** The lines committed so far and the line being filled. */
  datatype WrapState = WrapState(lines: seq<string>, current: string)

  /** The words of all lines, line after line. */
  function WordsOfLines(lines: seq<string>): seq<string>
  {
    if |lines| == 0 then [] else WordsOfLines(lines[..|lines| - 1]) + Words(lines[|lines| - 1])
  }

  /** The line is some words joined with single spaces: no edge whitespace,
      no doubled spaces, no other whitespace. */
  ghost predicate Spaced(line: string) {
    exists ws :: AllWords(ws) && line == Join(ws, ' ')
  }

  /** The words a spaced line is joined from are its own words. */
  lemma SpacedJoin(line: string)
    requires Spaced(line)
    ensures Join(Words(line), ' ') == line
    ensures line != "" ==> |Words(line)| > 0
  {
    var ws :| AllWords(ws) && line == Join(ws, ' ');
    WordsOfJoin(ws);
  }

  /** The non-empty lines, in order. */
  function NonEmpty(lines: seq<string>): (kept: seq<string>)
    ensures forall i :: 0 <= i < |kept| ==> kept[i] != ""
    ensures |kept| <= |lines|
  {
    if |lines| == 0 then []
    else if lines[|lines| - 1] == "" then NonEmpty(lines[..|lines| - 1])
    else NonEmpty(lines[..|lines| - 1]) + [lines[|lines| - 1]]
  }

  lemma WordsOfLinesSnoc(lines: seq<string>, line: string)
    ensures WordsOfLines(lines + [line]) == WordsOfLines(lines) + Words(line)
  {
    assert (lines + [line])[..|lines|] == lines;
  }

  /** A single word is a spaced line. */
  lemma SpacedWord(w: string)
    requires IsWord(w)
    ensures Spaced(w) && Words(w) == [w]
  {
    WordsOfWord(w);
    assert Join([w], ' ') == w;
  }

  /** Extending a non-empty spaced line by a space and a word gives a spaced
      line holding one more word. */
  lemma SpacedExtend(line: string, w: string)
    requires Spaced(line) && line != "" && IsWord(w)
    ensures Words(line + " " + w) == Words(line) + [w]
    ensures Spaced(line + " " + w)
  {
    var ws :| AllWords(ws) && line == Join(ws, ' ');
    assert line + " " + w == line + [' '] + w;
    WordsAround(line, ' ', w);
    WordsOfWord(w);
    JoinSnoc(ws, w, ' ');
    assert AllWords(ws + [w]);
  }

  /** Each word of the line from the `from`-th on passed the loop's test when
      it was added: the line's first `k` words, joined with single spaces after
      `lead`, measured within the limit. */
  predicate Grown(measure: string -> int, limit: int, lead: string, from: nat, line: string) {
    forall k :: from <= k <= |Words(line)| ==> measure(lead + Join(Words(line)[..k], ' ')) <= limit
  }

  /** A one-word line has grown once its first word, if it was tested, passed. */
  lemma GrownWord(measure: string -> int, limit: int, lead: string, from: nat, w: string)
    requires IsWord(w) && 1 <= from
    requires from == 1 ==> measure(lead + w) <= limit
    ensures Grown(measure, limit, lead, from, w)
  {
    WordsOfWord(w);
    assert [w][..1] == [w];
    assert Join([w], ' ') == w;
  }

  /** The empty line has no words to test. */
  lemma GrownEmpty(measure: string -> int, limit: int, lead: string, from: nat)
    requires 1 <= from
    ensures Grown(measure, limit, lead, from, "")
  {
    WordsEmptyIffBlank("");
  }

  /** A word that passed the test on a grown line keeps the line grown. */
  lemma GrownExtend(measure: string -> int, limit: int, lead: string, from: nat, line: string, w: string)
    requires Spaced(line) && line != "" && IsWord(w) && 1 <= from
    requires Grown(measure, limit, lead, from, line)
    requires measure(lead + (line + " " + w)) <= limit
    ensures Grown(measure, limit, lead, from, line + " " + w)
  {
    var ws := Words(line);
    SpacedExtend(line, w);
    SpacedJoin(line);
    var ext := ws + [w];
    forall k | from <= k <= |ext|
      ensures measure(lead + Join(ext[..k], ' ')) <= limit
    {
      if k <= |ws| {
        assert ext[..k] == ws[..k];
      } else {
        assert ext[..k] == ext;
        JoinSnoc(ws, w, ' ');
        assert Join(ext, ' ') == line + " " + w;
      }
    }
  }

  /** A spaced line has no whitespace at either end and no whitespace but spaces. */
  lemma SpacedNoEdge(line: string)
    requires Spaced(line)
    ensures NoEdgeSpace(line)
    ensures forall i :: 0 <= i < |line| ==> line[i] == ' ' || !IsSpace(line[i])
  {
    var ws :| AllWords(ws) && line == Join(ws, ' ');
    if ws != [] {
      JoinOfWordsShape(ws);
    }
  }

  lemma {:induction false} JoinAppend(a: seq<string>, b: seq<string>, sep: char)
    requires |a| > 0 && |b| > 0
    ensures Join(a + b, sep) == Join(a, sep) + [sep] + Join(b, sep)
    decreases |a|
  {
    if |a| > 1 {
      assert (a + b)[1..] == a[1..] + b;
      JoinAppend(a[1..], b, sep);
    }
  }

  /** Joining the non-empty spaced lines with single spaces gives the same text
      as joining all their words with single spaces. */
  lemma {:induction false} RejoinLines(lines: seq<string>)
    requires forall i :: 0 <= i < |lines| ==> Spaced(lines[i])
    ensures Join(NonEmpty(lines), ' ') == Join(WordsOfLines(lines), ' ')
    ensures NonEmpty(lines) == [] <==> WordsOfLines(lines) == []
    decreases |lines|
  {
    if |lines| > 0 {
      var init := lines[..|lines| - 1];
      var last := lines[|lines| - 1];
      RejoinLines(init);
      SpacedJoin(last);
      if last != "" {
        if NonEmpty(init) != [] {
          JoinSnoc(NonEmpty(init), last, ' ');
          JoinAppend(WordsOfLines(init), Words(last), ' ');
        } else {
          assert WordsOfLines(lines) == WordsOfLines(init) + Words(last) == Words(last);
        }
      } else {
        assert WordsOfLines(lines) == WordsOfLines(init) + Words(last) == WordsOfLines(init);
      }
    }
  }
}
